=== FILE: README.md ===
# TETEU IA — a Dafny model of the assistant's core logic

TETEU is a command-line programming assistant (`teteu.py`). It forwards prompts
to OpenAI's chat API, to Cohere and to Hugging Face. It keeps a conversation log
and a quiz ranking in SQLite, and it summarises what four linters say about a
piece of code. This project models the deterministic logic inside that glue
as pure Dafny functions. Every call into the outside world is a parameter: the
chat completion, Cohere, Hugging Face, the translator and each linter
subprocess. Each of these parameters gives either a value or the text of the
exception it raised (`Outcomes.Outcome`). Hugging Face is the exception: its
parameter gives one of four shapes (`Aggregator.HfReply`). These are a list
whose first item has generated text, a dictionary with an `error` key, any
other decoded JSON (as Python's `str()` prints it), or the text of the
exception the request raised.

Modules, one per component:

- `Outcomes`: returned value or raised exception, and an option type.
- `Text`: Python's `in`, `startswith`, `endswith`, `lower` (ASCII letters), `join` and `str(int)`, and the UTF-8 length of a string.
- `SqlLike`: SQLite's `LIKE` matching: `%`, `_`, ASCII case folding, no escape character. Each operand is read only up to its first U+0000 (`SqlLike.LikeOperator`). The cap on a pattern's length is modelled in `History.Search`.
- `History`: the `historico` table.
  - An append that follows SQLite's AUTOINCREMENT rule.
  - The newest-rows window shared by `obter_contexto`, `mostrar_historico` and `mostrar_historico_interface`.
  - `buscar_no_historico`, including SQLite's refusal of a `LIKE` pattern longer than 50,000 bytes.
  - `limpar_historico`, and the text these functions print or return.
- `Chat`: the message list `perguntar_ao_gpt` sends and how it maps the reply or the failure to a string.
- `Aggregator`: `perguntar_todas_ias`, with `traduzir_para_ingles`, `perguntar_ao_cohere` and `perguntar_ao_huggingface`.
- `Ranking`: the `ranking` table.
  - Create-if-absent.
  - `atualizar_pontuacao`.
  - The `mostrar_ranking` order.
- `Lint`: the verdict logic of `analisar_codigo`.

Modelling assumption: `teteu.py` never inserts into `historico`.
`History.Append` is the insertion the schema implies, and nothing more:

- A new id is one more than the larger of the largest id ever issued (`sqlite_sequence`) and the largest id in the table.
- Past 2^63 − 1, SQLite raises "database or disk is full".
- `DELETE FROM historico` keeps `sqlite_sequence`, so ids resume after the largest one ever issued. A clear never restarts numbering.

Behaviour of the code that is easy to misread:

- Failed providers are not omitted from the merged answer. `perguntar_ao_cohere` and `perguntar_ao_huggingface` turn an exception into `"Erro Cohere: …"` / `"Erro Hugging Face: …"`. `perguntar_ao_gpt` turns it into `"Erro ao acessar OpenAI: …"`. The two secondary error texts are merged like answers unless they mention "quota" in any case (`Aggregator.CohereContribution`, `Aggregator.HuggingFaceContribution`). GPT's error text is dropped only when the exception contains `insufficient_quota`. `perguntar_ao_gpt` then returns its quota warning, and that warning is never merged (`Aggregator.GptContribution`).
- Search is not case-sensitive. SQLite's `LIKE` folds ASCII letters, and `%` and `_` in a term act as wildcards (`SqlLike.Like`).
- A U+0000 cuts a search short. SQLite's `LIKE` reads both the column and the pattern only up to the first U+0000. A row whose command is `a\0x` is not found by the term `x`. A term that itself holds U+0000 loses its closing `%`, so it finds only rows whose column ends with the part of the term before the U+0000 (`SqlLike.SuffixOperator`, `History.SearchWithNulIsSuffix`).
- Ranking points can fall. `atualizar_pontuacao` adds whatever it is given, so points never decrease only when the gains are non-negative (`Ranking.ScoresNeverDecrease`).
- pylint's problems are reported only when its output lacks the line "Your code has been rated". Any output that holds that line counts as clean, even when it lists messages above it (`Lint.PylintScoreIsClean`).
- A search term of 49,999 UTF-8 bytes or more makes `buscar_no_historico` raise on a non-empty table: SQLite refuses the `%term%` pattern, and no `try` surrounds the query. A pattern over 1,000,000,000 bytes fails earlier, while it is bound, even on an empty table (`History.Search`).
- A row limit outside the signed 64-bit range cannot be bound: `sqlite3` raises `OverflowError` before the query runs. `obter_contexto`, `mostrar_historico` and `mostrar_historico_interface` raise it. `perguntar_ao_gpt` catches it and returns "Erro ao acessar OpenAI: Python int too large to convert to SQLite INTEGER" without calling OpenAI (`History.Window`, `Chat.AskGpt`). Every caller in `teteu.py` passes 5 or 10.
- The `try`/`except Exception` blocks around each provider in `perguntar_todas_ias` can never fire: every callee already catches `Exception` itself. So each provider's contribution is a total function of its own oracle, and one provider can never stop a later one.

## Model

| member | source | states |
|---|---|---|
| Text.Contains | teteu.py:83 | the scan answers true exactly when the needle occurs at some position of the haystack (Python's `in` on strings) |
| Text.MissingCharNotContained | teteu.py:83 | a needle holding a character the haystack lacks is never `in` it |
| Text.Join | teteu.py:396 | joining no parts gives ""; a join begins with its first part, so it is non-empty when that part is |
| Text.JoinLength | teteu.py:278 | a join is as long as its parts plus one separator between each adjacent pair |
| Text.DecimalRoundTrip | teteu.py:427 | reading back the digits `str(n)` prints gives `n` |
| Text.IntToStringInjective | teteu.py:101 | `str` on integers is injective: two integers print the same only if they are equal |
| Text.StartsWith | teteu.py:372 | `s.startswith(p)` holds exactly when `p` is no longer than `s` and agrees with it at every position |
| Text.NatToString | teteu.py:101 | `str(n)` for n ≥ 0 is a non-empty run of decimal digits (also at teteu.py:112 and :427), with a leading 0 only for 0 itself |
| Text.IntToString | teteu.py:101 | `str(n)` for any integer (also at teteu.py:112 and :427) is non-empty, holds only digits and `-`, and holds no space |
| Text.Utf8Length | teteu.py:108 | the UTF-8 length of the bound pattern lies between one and four bytes per character, and is one byte per character for ASCII text |
| Text.Utf8LengthConcat | teteu.py:108 | the UTF-8 length of a concatenation is the sum of the lengths |
| Text.Lower | teteu.py:381 | `.lower()` on ASCII letters: same length, each letter lowered, every other character kept |
| SqlLike.Like | teteu.py:107-108 | the matcher SQLite applies to the text before each operand's first U+0000: `%`, `_` and ASCII case folding; a pattern without wildcards matches exactly the strings equal to it up to ASCII case |
| SqlLike.CutAtNul | teteu.py:107-108 | what `LIKE` reads of a value: the longest prefix without U+0000, ending just before the first U+0000, and the whole value when it has none |
| SqlLike.CutAtNulConcat | teteu.py:108 | cutting `a + b` cuts inside `a` when `a` holds U+0000, and otherwise keeps all of `a` and cuts `b` |
| SqlLike.LikeOperator | teteu.py:107-108 | `s LIKE p` as SQLite evaluates it is the matcher on both cut operands, and is the matcher itself on text without U+0000 |
| SqlLike.NulEndsValue | teteu.py:107-108 | `'ab\0c' LIKE 'ab'` holds: the value's text after U+0000 is ignored |
| SqlLike.NulHidesRest | teteu.py:107-108 | `'a\0x' LIKE '%x%'` fails: what follows U+0000 in a column cannot be found |
| SqlLike.NulEndsPattern | teteu.py:107-108 | `'ab' LIKE 'ab\0c%'` holds: the pattern's text after U+0000 is never required |
| SqlLike.SubstringPattern | teteu.py:108 | the pattern is the term with a `%` wildcard on each side |
| SqlLike.SubstringMatch | teteu.py:107-108 | for a term without `%`/`_`, the matcher accepts `%term%` on a string exactly when the lower-cased term occurs in the lower-cased string |
| SqlLike.SubstringOperator | teteu.py:107-108 | for a term without `%`, `_` or U+0000, `s LIKE '%term%'` as SQLite evaluates it holds exactly when the lower-cased term occurs in the lower-cased text of `s` before its first U+0000 |
| SqlLike.SuffixOperator | teteu.py:107-108 | for a term without `%` or `_` that holds U+0000, `s LIKE '%term%'` as SQLite evaluates it holds exactly when the text of `s` before its first U+0000 ends with the term's part before U+0000, up to ASCII case |
| SqlLike.LeadingPercent | teteu.py:107-108 | for the matcher, a leading `%` matches exactly when the rest of the pattern matches some suffix |
| SqlLike.LiteralSuffix | teteu.py:107-108 | for the matcher, `%t` with `t` free of wildcards matches exactly the strings that end with `t` up to ASCII case |
| SqlLike.LiteralPrefix | teteu.py:107-108 | for the matcher, `term%` matches exactly the strings that begin with the term up to ASCII case |
| SqlLike.EmptyTermMatchesAll | teteu.py:106-108 | `s LIKE '%%'`, the pattern of the empty term, holds for every value, U+0000 or not |
| History.MaxId | teteu.py:30 | `max(id)` bounds every id in the table and is one of them (or 0 for no rows) |
| History.NextId | teteu.py:30 | AUTOINCREMENT's next id exceeds the last id issued and every id in the table |
| History.Append | teteu.py:28-34 | a new row goes at the end with an id above every earlier id; the table stays ordered and valid; the insert fails only when the counter is at 2^63 − 1 |
| History.AppendAllNumbers | teteu.py:28-34 | n appends keep the old rows, add the pairs in order and number them consecutively after the last id issued |
| History.AppendAllFromEmpty | teteu.py:28-34 | from the empty table, n appends give back exactly the pairs in insertion order with ids 1..n, strictly increasing |
| History.Reverse | teteu.py:54 | `[::-1]` keeps the length and exactly the same elements |
| History.ReverseInvolutive | teteu.py:54 | reversing twice gives back the original order |
| History.OrderByIdDesc | teteu.py:51 | `ORDER BY id DESC` over the table yields the same rows in strictly descending id order |
| History.Limit | teteu.py:51 | `LIMIT n` on a limit SQLite receives keeps the first min(n, count) elements, all of them for a negative n (a limit outside 64 bits never reaches it: `History.Window`) |
| History.WindowSize | teteu.py:51 | the number of rows `LIMIT n` keeps is at most the rows there are |
| History.Newest | teteu.py:50-54 | for a limit SQLite receives: newest-first, limited, then reversed gives exactly the last min(n, count) rows (all of them for a negative limit), in ascending id order |
| History.Window | teteu.py:51 | binding the limit (also at teteu.py:97 and :422) raises "Python int too large to convert to SQLite INTEGER" exactly when it is outside the signed 64-bit range; otherwise the query returns the last min(n, count) rows, oldest first |
| History.Pairs | teteu.py:51-54 | each fetched row becomes its (comando, resposta) pair, in the same order |
| History.Context | teteu.py:50-54 | `obter_contexto` raises the binding error exactly for a limit outside 64 bits, and otherwise returns the (comando, resposta) of exactly the last min(n, count) rows, oldest first |
| History.ContextOfOneAfterAppend | teteu.py:50-54 | right after an append, a window of one holds exactly the new pair |
| History.WindowGrowsBackwards | teteu.py:50-54 | a smaller window is the tail of a larger one: raising the limit only adds older rows in front |
| History.Matches | teteu.py:107-108 | the `WHERE comando LIKE ? OR resposta LIKE ?` test with the pattern `%term%`, as SQLite evaluates it; every row matches the empty term |
| History.Filter | teteu.py:107 | the filter keeps exactly the matching rows and preserves ascending id order |
| History.Search | teteu.py:106-109 | `buscar_no_historico` fails while binding `%term%`, whatever the table holds, when it exceeds 2^31 − 1 UTF-8 bytes ("string longer than INT_MAX bytes") or 1,000,000,000 bytes ("string or blob too big"). Below that, it raises "LIKE or GLOB pattern too complex" exactly when the table is non-empty and the pattern exceeds 50,000 bytes, U+0000 included. Otherwise it finds exactly the rows whose command or answer is `LIKE '%term%'` as SQLite evaluates it, in ascending id order |
| History.SearchIsSubstring | teteu.py:106-109 | for a term without wildcards or U+0000 and within SQLite's cap, the search succeeds, and a row is found iff the term occurs in its command or answer before their first U+0000, ignoring ASCII case |
| History.SearchWithNulIsSuffix | teteu.py:106-109 | for a term without wildcards that holds U+0000 and is within SQLite's cap, the search succeeds, and a row is found iff its command or answer, read up to its first U+0000, ends with the term's part before U+0000, ignoring ASCII case |
| History.SearchEmptyFindsAll | teteu.py:106-109 | the empty term finds every row, in table order |
| History.Clear | teteu.py:152-155 | `limpar_historico` leaves no row, keeps the last id issued so the next id is above every id that was in the table, and prints the confirmation line |
| History.ClearLeavesNothing | teteu.py:152-154 | after a clear, every window is empty, every context for a limit that binds is empty, and every search whose pattern binds succeeds with no rows, however far over the `LIKE` cap |
| History.NoIdReuseAfterClear | teteu.py:152-154 | a row appended after a clear gets the id after the last one issued, above every earlier id |
| History.RowLine | teteu.py:101 | the line printed for a row (also at teteu.py:112) opens with a new line, the id badge, the id and a space |
| History.RowBlock | teteu.py:427 | the text appended for a row opens with a new line, the id badge, the id and a space |
| History.RowHeadNamesId | teteu.py:427 | a rendered row whose head shows an id is the row with that id, whatever its command and answer hold |
| History.Blocks | teteu.py:425-428 | the rendered text begins with the first row's block |
| History.BlocksConcat | teteu.py:425-428 | rendering two runs of rows one after the other equals rendering them together, so every row appears once and in order |
| History.ShowHistory | teteu.py:421-430 | `mostrar_historico_interface` raises the binding error exactly for a limit outside 64 bits. Otherwise it returns the empty-history message exactly when the window is empty, and else the blocks of every row of the window (the last `limite` rows), oldest first |
| History.PrintedRows | teteu.py:100-101 | one `print` per row writes the first row's line and a newline first, and nothing at all for no rows |
| History.PrintedRowsAreBlocks | teteu.py:100-101 | one `print` per row writes exactly the text the interface version builds |
| History.PrintHistory | teteu.py:96-103 | `mostrar_historico` raises the same error as `mostrar_historico_interface`, and otherwise prints what that function returns, plus print's newline after the empty message |
| History.NothingFound | teteu.py:114 | the "nothing found" line opens with the magnifier, never with the newline a row block opens with, and the term can be read back between its quotes |
| History.SearchOutput | teteu.py:106-114 | the search prints the found rows oldest first, or the "nothing found" line naming the term when none match; the `sqlite3` error escapes unchanged |
| Chat.Turns | teteu.py:62-64 | each context pair becomes a user turn at 2i and an assistant turn at 2i+1 |
| Chat.BuildMessages | teteu.py:59-72 | the message list has 2·|context|+1 entries, pair i at 2i/2i+1 in context order, and ends with the user turn persona + prompt |
| Chat.ParseTurnsRoundTrip | teteu.py:62-64 | the alternating turns read back into exactly the context pairs |
| Chat.MessagesRoundTrip | teteu.py:59-72 | the context and the question can be read back from the message list exactly |
| Chat.GptMessages | teteu.py:57-72 | no message list is built when the limit is outside 64 bits (the binding error); otherwise it holds two turns per row of the window and ends with the user turn persona + prompt |
| Chat.GptMessagesPairs | teteu.py:57-64 | when the list is built, row i of the last `limite` rows, oldest first, becomes the user turn at 2i and the assistant turn at 2i+1 |
| Chat.AskGpt | teteu.py:57-85 | a limit outside 64 bits gives "Erro ao acessar OpenAI: " + the binding error, with no call to OpenAI; otherwise the reply text is returned as is, and on failure the quota warning comes back exactly when the error mentions `insufficient_quota`, else "Erro ao acessar OpenAI: " + error |
| Chat.OpenAiFailure | teteu.py:82-85 | the `except` clause gives the quota warning exactly when the error mentions `insufficient_quota`, and the prefixed error text otherwise |
| Chat.BindErrorIsNoQuota | teteu.py:83 | the binding error's text never mentions `insufficient_quota`, so it is reported as an ordinary error |
| Aggregator.Translate | teteu.py:400-404 | the translation is used when the service answers; the original text when it raises |
| Aggregator.AskCohere | teteu.py:337-347 | Cohere's text is returned as is; a failure becomes "Erro Cohere: " + error |
| Aggregator.AskHuggingFace | teteu.py:349-364 | generated text, or `str()` of any other decoded value, is returned as is; an error object or a failed request becomes "Erro Hugging Face: " + error |
| Aggregator.GptAccepted | teteu.py:372 | GPT's text is kept when non-empty and not opening with the quota warning; the warning itself is never kept, any non-empty text not opening with the warning sign always is |
| Aggregator.MentionsQuota | teteu.py:381 | `"quota" in str(texto).lower()`; only texts of five or more characters can mention it |
| Aggregator.QuotaInAnyCase | teteu.py:381 | a text mentions "quota" exactly when five consecutive characters spell it in some mix of ASCII upper and lower case |
| Aggregator.SecondaryAccepted | teteu.py:381 | a Cohere or Hugging Face text (also at teteu.py:390) is kept when non-empty and not mentioning "quota"; any text of one to four characters is kept |
| Aggregator.Collect | teteu.py:367-393 | at most three entries, none empty |
| Aggregator.Combine | teteu.py:395-398 | never empty; the fixed fallback exactly when no answer is accepted; an accepted GPT answer opens the text behind its label |
| Aggregator.CombineMatchesTable | teteu.py:366-398 | for all eight accept/reject combinations, the merge is the blank-line join of the accepted labelled answers in the order GPT, Cohere, Hugging Face |
| Aggregator.AskAll | teteu.py:366-398 | `perguntar_todas_ias` is never empty and equals the case table applied to the three providers' texts |
| Aggregator.GptContribution | teteu.py:370-373 | GPT contributes iff it answered non-empty text not opening with the quota warning, or failed without `insufficient_quota`; a limit outside 64 bits is such a failure, and its error text is kept |
| Aggregator.PrefixHidesNoQuota | teteu.py:381 | the error prefixes never create or hide a "quota": prefix + e mentions it iff e does |
| Aggregator.CohereContribution | teteu.py:377-382 | Cohere contributes iff it answered non-empty text without "quota" in any case, or failed with an error that does not mention it |
| Aggregator.HuggingFaceContribution | teteu.py:386-391 | Hugging Face contributes iff its text, or its error behind the prefix, is non-empty and does not mention "quota" |
| Aggregator.AllQuotaGivesFallback | teteu.py:366-398 | when the message list is built and OpenAI's error contains `insufficient_quota`, and what Cohere and Hugging Face give back for the translated prompt mentions "quota" in any shape (answer, error, error object, other JSON or failed request), the result is exactly the fixed fallback message |
| Aggregator.AllQuotaScenario | teteu.py:366-398 | a concrete run with the default limit of 5 in which OpenAI reports `insufficient_quota`, Cohere fails with "Quota exceeded" and Hugging Face returns the error object "QUOTA" ends with the fallback message |
| Ranking.Register | teteu.py:47 | create-if-absent: an existing entry is untouched, a new name starts at (0, 0), no other key changes |
| Ranking.RegisterIdempotent | teteu.py:47 | registering twice equals registering once |
| Ranking.AddScore | teteu.py:432-433 | the named entry gets pontos + gain and quizzes + 1; every other entry is unchanged; no-op when the name is absent |
| Ranking.AddScores | teteu.py:432-433 | repeated updates never add or remove names |
| Ranking.AddScoresAccumulate | teteu.py:432-433 | a run of updates adds the sum of the gains and the number of quizzes to the named entry only |
| Ranking.SumNonNegative | teteu.py:433 | non-negative gains add up to a non-negative total |
| Ranking.ScoresNeverDecrease | teteu.py:432-433 | with non-negative gains, points and quiz count never go down |
| Ranking.AnaScenario | teteu.py:432-433 | a new player scored +10 then +5 has 15 points over 2 quizzes |
| Ranking.Insert | teteu.py:318 | inserting into an ordered listing keeps it ordered by (pontos, quizzes) descending, adds exactly one element and keeps every other element |
| Ranking.InsertKeepsNamesDistinct | teteu.py:318 | inserting a player not yet listed keeps every name listed once |
| Ranking.Standings | teteu.py:317-320 | `mostrar_ranking` lists every player exactly once with their own entry, ordered by points then quizzes, descending |
| Lint.Report | teteu.py:247-250 | a section is the check-mark variant exactly when the tool did not complain; a complaint quotes the tool's output verbatim behind the header |
| Lint.Flake8Section | teteu.py:247-250 | flake8's section warns iff its output is non-empty, and then quotes it |
| Lint.PylintSection | teteu.py:257-260 | pylint's section warns iff its output is non-empty and lacks "Your code has been rated" |
| Lint.MypySection | teteu.py:264-267 | mypy's section warns iff its output is non-empty and lacks "Success" |
| Lint.BlackSection | teteu.py:271-274 | black's section is the formatting advice iff its output contains "would reformat" |
| Lint.Analyze | teteu.py:240-278 | the report exists iff all four tools ran; otherwise the first tool's exception escapes; the report is always four blank-line separated sections: flake8, pylint, mypy, black |
| Lint.JoinFour | teteu.py:278 | joining four sections puts one blank line between neighbours |
| Lint.ReportOpensWithFlake8 | teteu.py:246-250 | the report opens with a check mark exactly when flake8 printed nothing |
| Lint.PylintScoreIsClean | teteu.py:257-260 | any pylint output that contains "Your code has been rated" counts as clean, whatever the score and even when it also lists messages |

## Left out

- The SQLite engine, cursor, connection and commits. Tables are a sequence of rows plus the `sqlite_sequence` counter, and a map. The only storage error modelled is running out of ids.
- NULL columns in `historico`: nothing in the program writes one, so `comando` and `resposta` are plain strings.
- The OpenAI, Cohere, Hugging Face and StackExchange network calls, plus `temperature`, `max_tokens` and the model names: every call is an oracle parameter. The oracle's text stands for the reply after `.strip()`.
- Hugging Face's JSON decoding: only its four outcomes are kept (`Aggregator.HfReply`), since the response is untyped foreign data.
- GoogleTranslator internals: only success or failure. A translator that returns `None` is not modelled.
- Python's `str.lower()` on non-ASCII text: `Text.Lower` folds ASCII letters only. That is exact for the quota test, because no non-ASCII character lowercases to q, u, o, t or a.
- `executar_codigo` (RestrictedPython `exec`), writing and deleting `temp_code.py`, `limpar_arquivos_temporarios`, and the `.txt`/`.ipynb` exports: all file or interpreter I/O.
- The subprocess launches of the linters: only their captured standard output, or the exception they raise, is an input.
- GitHub listing, Windows toasts, `buscar_stackoverflow`, and the fixed-prompt wrappers around `perguntar_ao_gpt` (`explicar_codigo`, `quiz_programacao`, …): external services, or one-line prompt constants.
- The interactive `input`/`print` loop, the command dictionary, the help text and the `__main__` block: user-interface glue.
- The printed line format of `mostrar_ranking`: only the order and the content of its rows are modelled.
- Ranking.AddScore: SQLite integer overflow is not modelled. Past 2^63 − 1, SQLite turns `pontos + ?` into a floating-point value; the model's integers are unbounded. Gains are also assumed to be integers: nothing in `teteu.py` calls `atualizar_pontuacao`, and a float gain would make `pontos` a REAL value A gain or name that cannot be bound (an integer outside 64 bits, or a name over 1,000,000,000 UTF-8 bytes) raises before the update and is not modelled either.
- Ranking.Register: a name over 1,000,000,000 UTF-8 bytes cannot be bound, and the insert then raises. This is not modelled: the name is one line typed at the prompt.
- Ranking.Standings: the order of rows that tie on both points and quizzes is left open, because SQLite does not fix it either.

=== FILE: aggregator.dfy ===
/** `perguntar_todas_ias`: asks GPT, Cohere and Hugging Face one after the
    other and merges what they answer into one text. */
module Aggregator {
  import opened Outcomes
  import opened Text
  import opened Chat
  import History

  const GptLabel: string := "\U{1F916} GPT:\n"
  const CohereLabel: string := "\U{1F7E3} Cohere:\n"
  const HuggingFaceLabel: string := "\U{1F917} Hugging Face:\n"

  /** Returned when no provider's answer is accepted. */
  const NoProviderMessage: string :=
    "Nenhuma IA pôde responder no momento " + "(todas atingiram o limite ou houve erro)."

  const CohereErrorPrefix: string := "Erro Cohere: "
  const HuggingFaceErrorPrefix: string := "Erro Hugging Face: "

  /** The word whose presence, in any ASCII case, rejects a Cohere or
      Hugging Face answer. */
  const QuotaWord: string := "quota"

  /** `traduzir_para_ingles(texto)`. `translator` stands for one call to the
      Portuguese-to-English translation service. */
  function Translate(texto: string, translator: string -> Outcome<string>): (r: string)
    ensures translator(texto).Returned? ==> r == translator(texto).value
    ensures translator(texto).Raised? ==> r == texto
  {
    match translator(texto)
    case Returned(traduzido) => traduzido
    case Raised(_) => texto
  }

  /** `perguntar_ao_cohere(prompt)`. `cohere` stands for the generate call
      and returns the stripped text of the first generation. */
  function AskCohere(prompt: string, cohere: string -> Outcome<string>): (r: string)
    ensures cohere(prompt).Returned? ==> r == cohere(prompt).value
    ensures cohere(prompt).Raised? ==> r == CohereErrorPrefix + cohere(prompt).error
  {
    match cohere(prompt)
    case Returned(texto) => texto
    case Raised(e) => CohereErrorPrefix + e
  }

  /** The shapes of reply `perguntar_ao_huggingface` tells apart: a list
      whose first item has `generated_text` (stripped), a dict with an
      `error` key, any other JSON value (as `str(resposta)`), or an
      exception raised by the request or the JSON decoding. */
  datatype HfReply =
    | Generated(text: string)
    | ErrorObject(error: string)
    | OtherJson(repr: string)
    | RequestFailed(error: string)

  /** `perguntar_ao_huggingface(prompt)`. */
  function AskHuggingFace(prompt: string, hf: string -> HfReply): (r: string)
    ensures hf(prompt).Generated? ==> r == hf(prompt).text
    ensures hf(prompt).OtherJson? ==> r == hf(prompt).repr
    ensures hf(prompt).ErrorObject? || hf(prompt).RequestFailed? ==>
      r == HuggingFaceErrorPrefix + hf(prompt).error
  {
    match hf(prompt)
    case Generated(texto) => texto
    case ErrorObject(e) => HuggingFaceErrorPrefix + e
    case OtherJson(repr) => repr
    case RequestFailed(e) => HuggingFaceErrorPrefix + e
  }

  /** GPT's answer is kept when it is non-empty and does not open like the
      quota warning: the warning itself is never kept, and any non-empty
      text that does not open with the warning sign is. */
  predicate GptAccepted(texto: string)
    ensures texto == QuotaWarning ==> !GptAccepted(texto)
    ensures |texto| > 0 && texto[0] != QuotaPrefix[0] ==> GptAccepted(texto)
  {
    assert QuotaWarning[..|QuotaPrefix|] == QuotaPrefix;
    |texto| > 0 && !StartsWith(texto, QuotaPrefix)
  }

  /** `"quota" in str(texto).lower()`; it needs at least five characters. */
  predicate MentionsQuota(texto: string)
    ensures MentionsQuota(texto) ==> |texto| >= |QuotaWord|
  {
    Contains(Lower(texto), QuotaWord)
  }

  /** The five characters of `texto` from `i` on spell "quota" in some
      mix of ASCII upper and lower case. */
  predicate QuotaSpelledAt(texto: string, i: int)
  {
    0 <= i && i + |QuotaWord| <= |texto| && Lower(texto[i..i + |QuotaWord|]) == QuotaWord
  }

  /** "quota" is found in any mix of ASCII upper and lower case: the text
      mentions it exactly when some five-character slice spells it. */
  lemma QuotaInAnyCase(texto: string)
    ensures MentionsQuota(texto) <==> exists i :: QuotaSpelledAt(texto, i)
  {
    var n := |QuotaWord|;
    if MentionsQuota(texto) {
      var i :| OccursAt(Lower(texto), QuotaWord, i);
      LowerSlice(texto, i, i + n);
      assert QuotaSpelledAt(texto, i);
    }
    if i :| QuotaSpelledAt(texto, i) {
      LowerSlice(texto, i, i + n);
      assert OccursAt(Lower(texto), QuotaWord, i);
    }
  }

  /** A Cohere or Hugging Face answer is kept when it is non-empty and does
      not mention a quota; a text too short to hold "quota" is always kept. */
  predicate SecondaryAccepted(texto: string)
    ensures 0 < |texto| < |QuotaWord| ==> SecondaryAccepted(texto)
  {
    |texto| > 0 && !MentionsQuota(texto)
  }

  /** The `respostas` list: the accepted answers, each behind its label, in
      the order GPT, Cohere, Hugging Face. */
  function Collect(g: string, c: string, f: string): (respostas: seq<string>)
    ensures |respostas| <= 3
    ensures forall i :: 0 <= i < |respostas| ==> |respostas[i]| > 0
  {
    (if GptAccepted(g) then [GptLabel + g] else [])
    + (if SecondaryAccepted(c) then [CohereLabel + c] else [])
    + (if SecondaryAccepted(f) then [HuggingFaceLabel + f] else [])
  }

  /** The merge step of `perguntar_todas_ias`, given the three answers. */
  function Combine(g: string, c: string, f: string): (r: string)
    ensures |r| > 0
    ensures r == NoProviderMessage <==>
      !GptAccepted(g) && !SecondaryAccepted(c) && !SecondaryAccepted(f)
    ensures GptAccepted(g) ==> StartsWith(r, GptLabel + g)
  {
    var respostas := Collect(g, c, f);
    if |respostas| > 0 then
      var r := Join(Separator, respostas);
      assert r[0] == respostas[0][0];
      assert r[0] != NoProviderMessage[0];
      r
    else NoProviderMessage
  }

  /** An independent, case-by-case statement of the merged text: every
      combination of accepted answers, written out in the fixed order. */
  function Expected(g: string, c: string, f: string): string
  {
    var gl, cl, fl := GptLabel + g, CohereLabel + c, HuggingFaceLabel + f;
    match (GptAccepted(g), SecondaryAccepted(c), SecondaryAccepted(f))
    case (true, true, true) => gl + "\n\n" + cl + "\n\n" + fl
    case (true, true, false) => gl + "\n\n" + cl
    case (true, false, true) => gl + "\n\n" + fl
    case (true, false, false) => gl
    case (false, true, true) => cl + "\n\n" + fl
    case (false, true, false) => cl
    case (false, false, true) => fl
    case (false, false, false) => NoProviderMessage
  }

  /** The merged text is the blank-line join of the accepted, labelled
      answers in the order GPT, Cohere, Hugging Face; a rejected answer
      leaves no trace and does not disturb the others. */
  lemma CombineMatchesTable(g: string, c: string, f: string)
    ensures Combine(g, c, f) == Expected(g, c, f)
  {
    var gl, cl, fl := GptLabel + g, CohereLabel + c, HuggingFaceLabel + f;
    var ga, ca, fa := GptAccepted(g), SecondaryAccepted(c), SecondaryAccepted(f);
    if ga && ca && fa {
      assert Collect(g, c, f) == [gl, cl, fl];
      JoinThree(Separator, gl, cl, fl);
    } else if ga && ca {
      assert Collect(g, c, f) == [gl, cl];
      JoinTwo(Separator, gl, cl);
    } else if ga && fa {
      assert Collect(g, c, f) == [gl, fl];
      JoinTwo(Separator, gl, fl);
    } else if ca && fa {
      assert Collect(g, c, f) == [cl, fl];
      JoinTwo(Separator, cl, fl);
    }
  }

  /** `perguntar_todas_ias(prompt, contexto_limite)`. Each external call is
      its own oracle; the prompt is translated once for Cohere and once
      more for Hugging Face, and the two translations may differ. */
  function AskAll(h: History.Store, prompt: string, limite: int,
                  gpt: GptCall,
                  translateForCohere: string -> Outcome<string>,
                  cohere: string -> Outcome<string>,
                  translateForHf: string -> Outcome<string>,
                  hf: string -> HfReply): (r: string)
    ensures |r| > 0
    ensures r == Expected(AskGpt(h, prompt, limite, gpt),
                          AskCohere(Translate(prompt, translateForCohere), cohere),
                          AskHuggingFace(Translate(prompt, translateForHf), hf))
  {
    var g := AskGpt(h, prompt, limite, gpt);
    var c := AskCohere(Translate(prompt, translateForCohere), cohere);
    var f := AskHuggingFace(Translate(prompt, translateForHf), hf);
    CombineMatchesTable(g, c, f);
    Combine(g, c, f)
  }

  /** GPT contributes exactly when it answered with non-empty text that
      does not open with the quota warning, or when it failed for a reason
      other than an exhausted quota (the error text is then kept). A limit
      outside 64 bits is such a failure. */
  lemma GptContribution(h: History.Store, prompt: string, limite: int,
                        gpt: GptCall)
    ensures GptAccepted(AskGpt(h, prompt, limite, gpt)) <==>
      match GptMessages(h, prompt, limite)
      case Raised(_) => true
      case Returned(ms) =>
        match gpt(ms)
        case Returned(t) => |t| > 0 && !StartsWith(t, QuotaPrefix)
        case Raised(e) => !Contains(e, "insufficient_quota")
  {
    assert QuotaPrefix[0] == '\U{26A0}';
    match GptMessages(h, prompt, limite)
    case Raised(e) =>
      assert (OpenAiErrorPrefix + History.IntTooLarge)[0] == 'E';
    case Returned(ms) =>
      match gpt(ms)
      case Returned(t) =>
      case Raised(e) =>
        if !Contains(e, "insufficient_quota") {
          assert (OpenAiErrorPrefix + e)[0] == 'E';
        } else {
          assert QuotaWarning[..|QuotaPrefix|] == QuotaPrefix;
        }
  }

  /** The error prefixes of the secondary providers hold no `q` in either
      case, so they can never be where "quota" is found. */
  lemma PrefixHidesNoQuota(prefix: string, e: string)
    requires prefix == CohereErrorPrefix || prefix == HuggingFaceErrorPrefix
    ensures MentionsQuota(prefix + e) <==> MentionsQuota(e)
  {
    LowerConcat(prefix, e);
    var lp := Lower(prefix);
    assert forall k :: 0 <= k < |lp| ==> lp[k] != QuotaWord[0] by {
      forall k | 0 <= k < |lp| ensures lp[k] != QuotaWord[0] {
        assert prefix[k] != 'q' && prefix[k] != 'Q';
      }
    }
    ContainsBehindPrefix(lp, Lower(e), QuotaWord);
  }

  /** Cohere contributes exactly when it answered with non-empty text that
      does not mention a quota, or when it failed with an error that does
      not mention one (the "Erro Cohere: ..." text is then kept). */
  lemma CohereContribution(prompt: string, cohere: string -> Outcome<string>)
    ensures SecondaryAccepted(AskCohere(prompt, cohere)) <==>
      match cohere(prompt)
      case Returned(t) => |t| > 0 && !MentionsQuota(t)
      case Raised(e) => !MentionsQuota(e)
  {
    if cohere(prompt).Raised? {
      PrefixHidesNoQuota(CohereErrorPrefix, cohere(prompt).error);
    }
  }

  /** Hugging Face contributes exactly when its text (generated text,
      error text behind the prefix, or the raw JSON) is non-empty and does
      not mention a quota. */
  lemma HuggingFaceContribution(prompt: string, hf: string -> HfReply)
    ensures SecondaryAccepted(AskHuggingFace(prompt, hf)) <==>
      match hf(prompt)
      case Generated(t) => |t| > 0 && !MentionsQuota(t)
      case OtherJson(t) => |t| > 0 && !MentionsQuota(t)
      case ErrorObject(e) => !MentionsQuota(e)
      case RequestFailed(e) => !MentionsQuota(e)
  {
    match hf(prompt)
    case Generated(_) =>
    case OtherJson(_) =>
    case ErrorObject(e) => PrefixHidesNoQuota(HuggingFaceErrorPrefix, e);
    case RequestFailed(e) => PrefixHidesNoQuota(HuggingFaceErrorPrefix, e);
  }

  /** When OpenAI reports `insufficient_quota` and whatever Cohere and
      Hugging Face give back for the translated prompt mentions a quota
      (an answer, an error, an error object or the text of any other
      JSON), the caller gets exactly the fixed message and never an empty
      string. */
  lemma AllQuotaGivesFallback(h: History.Store, prompt: string, limite: int,
                              gpt: GptCall,
                              translateForCohere: string -> Outcome<string>,
                              cohere: string -> Outcome<string>,
                              translateForHf: string -> Outcome<string>,
                              hf: string -> HfReply)
    requires GptMessages(h, prompt, limite).Returned?
    requires var reply := gpt(GptMessages(h, prompt, limite).value);
      reply.Raised? && Contains(reply.error, "insufficient_quota")
    requires MentionsQuota(
      match cohere(Translate(prompt, translateForCohere))
      case Returned(t) => t
      case Raised(e) => e)
    requires MentionsQuota(
      match hf(Translate(prompt, translateForHf))
      case Generated(t) => t
      case OtherJson(t) => t
      case ErrorObject(e) => e
      case RequestFailed(e) => e)
    ensures AskAll(h, prompt, limite, gpt, translateForCohere, cohere, translateForHf, hf) == NoProviderMessage
  {
    GptContribution(h, prompt, limite, gpt);
    CohereContribution(Translate(prompt, translateForCohere), cohere);
    HuggingFaceContribution(Translate(prompt, translateForHf), hf);
  }

  /** A run where OpenAI reports `insufficient_quota`, Cohere fails with
      "Quota exceeded" and Hugging Face answers with the error object
      "QUOTA", whatever the translator does, with the default context of five
      rows: the caller gets the fallback. */
  lemma AllQuotaScenario(h: History.Store, prompt: string)
    ensures AskAll(h, prompt, 5,
                   (ms: seq<Message>) => Raised("insufficient_quota"),
                   (t: string) => Raised("offline"),
                   (t: string) => Raised("Quota exceeded"),
                   (t: string) => Returned(t),
                   (t: string) => ErrorObject("QUOTA"))
            == NoProviderMessage
  {
    assert History.FitsInt64(5);
    var e := "insufficient_quota";
    assert OccursAt(e, e, 0);
    assert Lower("Quota exceeded"[0..5]) == QuotaWord;
    assert QuotaSpelledAt("Quota exceeded", 0);
    QuotaInAnyCase("Quota exceeded");
    assert Lower("QUOTA"[0..5]) == QuotaWord;
    assert QuotaSpelledAt("QUOTA", 0);
    QuotaInAnyCase("QUOTA");
    AllQuotaGivesFallback(h, prompt, 5,
                          (ms: seq<Message>) => Raised("insufficient_quota"),
                          (t: string) => Raised("offline"),
                          (t: string) => Raised("Quota exceeded"),
                          (t: string) => Returned(t),
                          (t: string) => ErrorObject("QUOTA"));
  }
}

=== FILE: chat.dfy ===
/** `perguntar_ao_gpt`: the role-tagged message list sent to the chat
    completion API, and how the reply or the failure becomes a string. */
module Chat {
  import opened Outcomes
  import opened Text
  import History

  datatype Role = User | Assistant

  datatype Message = Message(role: Role, content: string)

  /** The chat completion call: the message list in, the stripped reply
      text or the exception out. */
  type GptCall = seq<Message> -> Outcome<string>

  /** The persona text placed in front of every new question. */
  const Persona: string :=
    "Você é o TETEU, um assistente de programação divertido, que responde de forma descontraída e amigável, "
    + "usando gírias brasileiras quando possível. "
    + "Seja claro, didático e incentive o usuário a aprender. "
    + "Pergunta do usuário: "

  /** The opening of the quota warning, which `perguntar_todas_ias` tests for. */
  const QuotaPrefix: string := "\U{26A0}\U{FE0F} Sua cota da OpenAI acabou"

  /** Returned instead of an answer when the API reports an exhausted quota. */
  const QuotaWarning: string :=
    QuotaPrefix + ". Verifique seu plano e billing em " + "https://platform.openai.com/account/usage"

  /** Put in front of `str(e)` for every other failure. */
  const OpenAiErrorPrefix: string := "Erro ao acessar OpenAI: "

  /** One user turn and one assistant turn per past (comando, resposta). */
  function Turns(context: seq<(string, string)>): (ms: seq<Message>)
    ensures |ms| == 2 * |context|
    ensures forall i :: 0 <= i < |context| ==>
      ms[2 * i] == Message(User, context[i].0) && ms[2 * i + 1] == Message(Assistant, context[i].1)
  {
    if |context| == 0 then []
    else
      var rest := Turns(context[1..]);
      var ms := [Message(User, context[0].0), Message(Assistant, context[0].1)] + rest;
      assert forall i :: 1 <= i < |context| ==>
        ms[2 * i] == Message(User, context[i].0) && ms[2 * i + 1] == Message(Assistant, context[i].1)
      by {
        forall i | 1 <= i < |context|
          ensures ms[2 * i] == Message(User, context[i].0) && ms[2 * i + 1] == Message(Assistant, context[i].1)
        {
          var j := i - 1;
          assert 2 * i == 2 * j + 2;
          assert context[1..][j] == context[i];
          assert ms[2 * j + 2] == rest[2 * j];
          assert ms[2 * j + 3] == rest[2 * j + 1];
        }
      }
      ms
  }

  /** The `mensagens` list: the past turns in context order, then the new
      question behind the persona text. */
  function BuildMessages(context: seq<(string, string)>, prompt: string): (ms: seq<Message>)
    ensures |ms| == 2 * |context| + 1
    ensures forall i :: 0 <= i < |context| ==>
      ms[2 * i] == Message(User, context[i].0) && ms[2 * i + 1] == Message(Assistant, context[i].1)
    ensures ms[|ms| - 1] == Message(User, Persona + prompt)
  {
    Turns(context) + [Message(User, Persona + prompt)]
  }

  /** Reads alternating user/assistant turns back into pairs. */
  function ParseTurns(ms: seq<Message>): Option<seq<(string, string)>>
  {
    if |ms| == 0 then Some([])
    else if |ms| == 1 || ms[0].role != User || ms[1].role != Assistant then None
    else
      match ParseTurns(ms[2..])
      case None => None
      case Some(rest) => Some([(ms[0].content, ms[1].content)] + rest)
  }

  /** Reads a message list back into the context and the question, when it
      has the shape `BuildMessages` produces. */
  function ParseMessages(ms: seq<Message>): Option<(seq<(string, string)>, string)>
  {
    if |ms| == 0 then None
    else
      var last := ms[|ms| - 1];
      if last.role != User || !StartsWith(last.content, Persona) then None
      else
        match ParseTurns(ms[..|ms| - 1])
        case None => None
        case Some(context) => Some((context, last.content[|Persona|..]))
  }

  lemma {:induction false} ParseTurnsRoundTrip(context: seq<(string, string)>)
    ensures ParseTurns(Turns(context)) == Some(context)
  {
    if |context| > 0 {
      ParseTurnsRoundTrip(context[1..]);
      assert Turns(context)[2..] == Turns(context[1..]);
      assert [(context[0].0, context[0].1)] + context[1..] == context;
    }
  }

  /** The message list loses nothing: the context and the question can be
      read back from it exactly. */
  lemma MessagesRoundTrip(context: seq<(string, string)>, prompt: string)
    ensures ParseMessages(BuildMessages(context, prompt)) == Some((context, prompt))
  {
    var ms := BuildMessages(context, prompt);
    assert ms[..|ms| - 1] == Turns(context);
    ParseTurnsRoundTrip(context);
    assert (Persona + prompt)[|Persona|..] == prompt;
  }

  /** What `perguntar_ao_gpt(prompt, limite)` sends: the last `limite` rows
      of the log followed by the question. Reading the log raises, and no
      message list is built, when `limite` is outside 64 bits. */
  function GptMessages(h: History.Store, prompt: string, limite: int): (r: Outcome<seq<Message>>)
    ensures r.Raised? <==> !History.FitsInt64(limite)
    ensures r.Raised? ==> r.error == History.IntTooLarge
    ensures r.Returned? ==> |r.value| == 2 * History.WindowSize(|h.rows|, limite) + 1
    ensures r.Returned? ==> r.value[|r.value| - 1] == Message(User, Persona + prompt)
  {
    match History.Context(h, limite)
    case Raised(e) => Raised(e)
    case Returned(context) => Returned(BuildMessages(context, prompt))
  }

  /** `ms` opens with one user turn and one assistant turn per row of `w`,
      in order. */
  predicate RowTurns(ms: seq<Message>, w: seq<History.Interaction>)
  {
    2 * |w| <= |ms|
    && forall i :: 0 <= i < |w| ==>
      ms[2 * i] == Message(User, w[i].comando) && ms[2 * i + 1] == Message(Assistant, w[i].resposta)
  }

  /** Row i of the window, oldest first, becomes the user turn at 2i and
      the assistant turn at 2i+1. */
  lemma GptMessagesPairs(h: History.Store, prompt: string, limite: int)
    ensures GptMessages(h, prompt, limite).Returned? ==>
      RowTurns(GptMessages(h, prompt, limite).value,
               h.rows[|h.rows| - History.WindowSize(|h.rows|, limite)..])
  {
    if History.FitsInt64(limite) {
      var w := History.Window(h, limite).value;
      var context := History.Context(h, limite).value;
      assert context == History.Pairs(w);
      var ms := BuildMessages(context, prompt);
      assert GptMessages(h, prompt, limite) == Returned(ms);
      assert |context| == |w|;
      forall i | 0 <= i < |w|
        ensures ms[2 * i] == Message(User, w[i].comando)
        ensures ms[2 * i + 1] == Message(Assistant, w[i].resposta)
      {
        assert context[i] == (w[i].comando, w[i].resposta);
      }
    }
  }

  /** The `except` clause of `perguntar_ao_gpt`: the quota warning when the
      exception's text mentions `insufficient_quota`, the prefixed text
      otherwise. */
  function OpenAiFailure(e: string): (r: string)
    ensures r == QuotaWarning <==> Contains(e, "insufficient_quota")
    ensures !Contains(e, "insufficient_quota") ==> r == OpenAiErrorPrefix + e
  {
    if Contains(e, "insufficient_quota") then QuotaWarning
    else
      assert (OpenAiErrorPrefix + e)[0] == 'E';
      assert QuotaWarning[0] == '\U{26A0}';
      OpenAiErrorPrefix + e
  }

  /** The binding error's text holds no `_`, so it never mentions
      `insufficient_quota`. */
  lemma BindErrorIsNoQuota()
    ensures !Contains(History.IntTooLarge, "insufficient_quota")
  {
    var e := History.IntTooLarge;
    assert forall i :: 0 <= i < |e| ==> e[i] != '_';
    assert "insufficient_quota"[12] == '_';
    MissingCharNotContained(e, "insufficient_quota", 12);
  }

  /** `perguntar_ao_gpt(prompt, limite)`. `gpt` stands for the chat
      completion call: it receives the message list and either returns the
      stripped reply text or raises. The function itself never raises: a
      limit outside 64 bits fails while the log is read, inside the same
      `try`, and comes back as an error text without any call to OpenAI. */
  function AskGpt(h: History.Store, prompt: string, limite: int,
                  gpt: GptCall): (r: string)
    ensures !History.FitsInt64(limite) ==> r == OpenAiErrorPrefix + History.IntTooLarge
    ensures GptMessages(h, prompt, limite).Returned? ==>
      var reply := gpt(GptMessages(h, prompt, limite).value);
      && (reply.Returned? ==> r == reply.value)
      && (reply.Raised? ==> (r == QuotaWarning <==> Contains(reply.error, "insufficient_quota")))
      && (reply.Raised? && !Contains(reply.error, "insufficient_quota") ==> r == OpenAiErrorPrefix + reply.error)
  {
    match GptMessages(h, prompt, limite)
    case Raised(e) =>
      BindErrorIsNoQuota();
      OpenAiFailure(e)
    case Returned(ms) =>
      match gpt(ms)
      case Returned(texto) => texto
      case Raised(e) => OpenAiFailure(e)
  }
}

=== FILE: history.dfy ===
/** The `historico` table: the conversation log the assistant keeps in
    SQLite, with the queries teteu.py runs against it. */
module History {
  import opened Outcomes
  import opened Text
  import opened SqlLike

  /** One row of `historico`: the command the user typed and the answer
      that was shown. */
  datatype Interaction = Interaction(id: int, comando: string, resposta: string)

  /** The table's rows in ascending id order, and the table's entry in
      SQLite's `sqlite_sequence`: the largest id AUTOINCREMENT has issued. */
  datatype Store = Store(rows: seq<Interaction>, lastIssued: int)

  /** The largest rowid SQLite can store (a signed 64-bit integer). */
  const MaxRowId: int := 0x7FFF_FFFF_FFFF_FFFF

  /** The smallest integer SQLite can store. */
  const Int64Min: int := -0x8000_0000_0000_0000

  /** Python's `sqlite3` module binds an `int` parameter only when it is a
      signed 64-bit integer. */
  predicate FitsInt64(n: int)
  {
    Int64Min <= n <= MaxRowId
  }

  /** What `sqlite3` raises, before the query runs, for an `int` parameter
      outside the signed 64-bit range. */
  const IntTooLarge: string := "Python int too large " + "to convert to SQLite INTEGER"

  /** SQLite's default cap on the length of any string value, in bytes
      (`SQLITE_MAX_LENGTH`); binding a longer text fails. */
  const SqliteMaxLength: int := 1_000_000_000

  /** What `sqlite3` raises when a bound text is longer than that cap. */
  const StringTooBig: string := "string or blob too big"

  /** Python's `sqlite3` module passes a text's length to SQLite as a C
      `int`: a text of more UTF-8 bytes than this is refused before SQLite
      sees it. */
  const IntMax: int := 0x7FFF_FFFF

  /** What `sqlite3` raises for a text parameter over `IntMax` bytes. */
  const StringTooLong: string := "string longer than INT_MAX bytes"

  /** What `sqlite3` raises when AUTOINCREMENT has no id left to issue. */
  const FullError: string := "database or disk is full"

  /** SQLite's default cap on the length of a `LIKE` pattern, in bytes
      (`SQLITE_MAX_LIKE_PATTERN_LENGTH`). */
  const LikePatternLimit: int := 50000

  /** What `sqlite3` raises when a `LIKE` pattern is longer than the cap. */
  const PatternTooComplex: string := "LIKE or GLOB pattern too complex"

  predicate Ascending(rows: seq<Interaction>)
  {
    forall i, j :: 0 <= i < j < |rows| ==> rows[i].id < rows[j].id
  }

  predicate Descending(rows: seq<Interaction>)
  {
    forall i, j :: 0 <= i < j < |rows| ==> rows[i].id > rows[j].id
  }

  /** What the schema guarantees: rows in id order, ids positive and never
      above the last id issued. */
  predicate Valid(h: Store)
  {
    && Ascending(h.rows)
    && 0 <= h.lastIssued <= MaxRowId
    && forall i :: 0 <= i < |h.rows| ==> 1 <= h.rows[i].id <= h.lastIssued
  }

  /** The table as `CREATE TABLE IF NOT EXISTS` leaves it on first use. */
  const Empty: Store := Store([], 0)

  /** `max(id)` over the rows, 0 for no rows. */
  function MaxId(rows: seq<Interaction>): (m: int)
    ensures m >= 0
    ensures forall i :: 0 <= i < |rows| ==> rows[i].id <= m
    ensures m == 0 || exists i :: 0 <= i < |rows| && rows[i].id == m
  {
    if |rows| == 0 then 0
    else var m := MaxId(rows[1..]); if rows[0].id > m then rows[0].id else m
  }

  /** The id AUTOINCREMENT hands out next: one more than the largest id
      that was ever issued or is in the table. */
  function NextId(h: Store): (id: int)
    ensures id > h.lastIssued
    ensures forall i :: 0 <= i < |h.rows| ==> h.rows[i].id < id
  {
    1 + (if h.lastIssued > MaxId(h.rows) then h.lastIssued else MaxId(h.rows))
  }

  datatype Appended = Appended(store: Store, id: int)

  /** Inserting one (comando, resposta) row with an AUTOINCREMENT id.
      teteu.py never inserts; this is the insertion the schema implies. */
  function Append(h: Store, comando: string, resposta: string): (r: Outcome<Appended>)
    ensures r.Returned? ==> r.value.id > h.lastIssued
    ensures r.Returned? ==> forall i :: 0 <= i < |h.rows| ==> h.rows[i].id < r.value.id
    ensures r.Returned? ==> r.value.store.rows == h.rows + [Interaction(r.value.id, comando, resposta)]
    ensures r.Raised? ==> r.error == FullError
    ensures Valid(h) ==> (r.Raised? <==> h.lastIssued == MaxRowId)
    ensures Valid(h) && r.Returned? ==> Valid(r.value.store)
  {
    var id := NextId(h);
    if id > MaxRowId then Raised(FullError)
    else
      var rows := h.rows + [Interaction(id, comando, resposta)];
      assert forall i :: 0 <= i < |h.rows| ==> rows[i] == h.rows[i];
      Returned(Appended(Store(rows, id), id))
  }

  /** A run of appends; stops at the first one that raises. */
  function AppendAll(h: Store, pairs: seq<(string, string)>): Outcome<Store>
    decreases |pairs|
  {
    if |pairs| == 0 then Returned(h)
    else
      match Append(h, pairs[0].0, pairs[0].1)
      case Raised(e) => Raised(e)
      case Returned(a) => AppendAll(a.store, pairs[1..])
  }

  /** The rows a run of appends adds: the pairs, numbered from `first`. */
  function Numbered(first: int, pairs: seq<(string, string)>): seq<Interaction>
  {
    seq(|pairs|, i requires 0 <= i < |pairs| => Interaction(first + i, pairs[i].0, pairs[i].1))
  }

  /** Appending `n` pairs keeps every old row, adds the pairs in order, and
      numbers them consecutively after the last id issued. */
  lemma {:induction false} AppendAllNumbers(h: Store, pairs: seq<(string, string)>)
    requires Valid(h)
    requires h.lastIssued + |pairs| <= MaxRowId
    ensures AppendAll(h, pairs) ==
      Returned(Store(h.rows + Numbered(h.lastIssued + 1, pairs), h.lastIssued + |pairs|))
    ensures Valid(AppendAll(h, pairs).value)
    decreases |pairs|
  {
    if |pairs| == 0 {
      assert h.rows + Numbered(h.lastIssued + 1, pairs) == h.rows;
    } else {
      var id := h.lastIssued + 1;
      var h1 := Store(h.rows + [Interaction(id, pairs[0].0, pairs[0].1)], id);
      AppendNext(h, pairs[0].0, pairs[0].1);
      AppendAllNumbers(h1, pairs[1..]);
      NumberedCons(id, pairs);
      assert h1.rows + Numbered(id + 1, pairs[1..]) == h.rows + Numbered(id, pairs);
    }
  }

  /** On a valid table with ids left, an append adds the row numbered one
      past the last id issued. */
  lemma AppendNext(h: Store, comando: string, resposta: string)
    requires Valid(h) && h.lastIssued < MaxRowId
    ensures Append(h, comando, resposta) ==
      Returned(Appended(Store(h.rows + [Interaction(h.lastIssued + 1, comando, resposta)], h.lastIssued + 1),
                        h.lastIssued + 1))
  {
    assert MaxId(h.rows) <= h.lastIssued;
  }

  lemma NumberedCons(first: int, pairs: seq<(string, string)>)
    requires |pairs| > 0
    ensures Numbered(first, pairs) == [Interaction(first, pairs[0].0, pairs[0].1)] + Numbered(first + 1, pairs[1..])
  {
  }

  /** Starting from the empty table, `n` appends give back exactly the
      pairs, in insertion order, with ids 1, 2, ..., n. */
  lemma AppendAllFromEmpty(pairs: seq<(string, string)>)
    requires |pairs| <= MaxRowId
    ensures AppendAll(Empty, pairs).Returned?
    ensures var rows := AppendAll(Empty, pairs).value.rows;
      && |rows| == |pairs|
      && Ascending(rows)
      && forall i :: 0 <= i < |pairs| ==> rows[i] == Interaction(i + 1, pairs[i].0, pairs[i].1)
  {
    AppendAllNumbers(Empty, pairs);
    assert AppendAll(Empty, pairs).value.rows == Numbered(1, pairs);
  }

  /** `seq[::-1]`: the same elements, last first. */
  function Reverse<T(!new)>(s: seq<T>): (r: seq<T>)
    ensures |r| == |s|
    ensures forall x :: x in r <==> x in s
  {
    var r := seq(|s|, i requires 0 <= i < |s| => s[|s| - 1 - i]);
    assert forall x :: x in s ==> x in r by {
      forall x | x in s ensures x in r {
        var i :| 0 <= i < |s| && s[i] == x;
        assert r[|s| - 1 - i] == x;
      }
    }
    r
  }

  /** Reversing twice gives back the original sequence. */
  lemma ReverseInvolutive<T(!new)>(s: seq<T>)
    ensures Reverse(Reverse(s)) == s
  {
    var r := Reverse(s);
    assert forall i :: 0 <= i < |s| ==> r[|s| - 1 - i] == s[i];
  }

  /** `ORDER BY id DESC` over a table kept in ascending id order. */
  function OrderByIdDesc(rows: seq<Interaction>): (r: seq<Interaction>)
    ensures Ascending(rows) ==> Descending(r)
    ensures forall x :: x in r <==> x in rows
  {
    Reverse(rows)
  }

  /** SQLite's `LIMIT n`: the first `n` elements, or all of them when there
      are fewer; a negative limit means no limit. */
  function Limit<T>(s: seq<T>, n: int): (r: seq<T>)
    ensures |r| == WindowSize(|s|, n)
    ensures r == s[..|r|]
  {
    if n < 0 || n >= |s| then s else s[..n]
  }

  /** How many rows `LIMIT n` keeps out of `count`. */
  function WindowSize(count: nat, n: int): (k: nat)
    ensures k <= count
  {
    if n < 0 || n >= count then count else n
  }

  /** The newest `n` rows by descending id, then reversed: the window
      `obter_contexto`, `mostrar_historico` and `mostrar_historico_interface`
      share. It is the last `min(n, count)` rows, oldest first. */
  function Newest(h: Store, n: int): (r: seq<Interaction>)
    ensures |r| == WindowSize(|h.rows|, n)
    ensures r == h.rows[|h.rows| - WindowSize(|h.rows|, n)..]
    ensures Valid(h) ==> Ascending(r)
  {
    var k := WindowSize(|h.rows|, n);
    assert Limit(OrderByIdDesc(h.rows), n) == Reverse(h.rows)[..k];
    ReversedPrefix(h.rows, k);
    Reverse(Limit(OrderByIdDesc(h.rows), n))
  }

  /** Reversing the first `k` elements of a reversal gives the last `k`
      elements in their original order. */
  lemma ReversedPrefix<T(!new)>(s: seq<T>, k: int)
    requires 0 <= k <= |s|
    ensures Reverse(Reverse(s)[..k]) == s[|s| - k..]
  {
    var p := Reverse(s)[..k];
    assert forall i :: 0 <= i < k ==> p[i] == s[|s| - 1 - i];
    assert forall i :: 0 <= i < k ==> Reverse(p)[i] == p[k - 1 - i];
  }

  /** Binding `limite` into the window query and fetching it: the window
      for a limit that fits in 64 bits, and the binding error for any other,
      raised before the query runs. */
  function Window(h: Store, limite: int): (r: Outcome<seq<Interaction>>)
    ensures r.Raised? <==> !FitsInt64(limite)
    ensures r.Raised? ==> r.error == IntTooLarge
    ensures r.Returned? ==> r.value == h.rows[|h.rows| - WindowSize(|h.rows|, limite)..]
  {
    if FitsInt64(limite) then Returned(Newest(h, limite)) else Raised(IntTooLarge)
  }

  /** The (comando, resposta) pair of every row, in the same order. */
  function Pairs(w: seq<Interaction>): (r: seq<(string, string)>)
    ensures |r| == |w|
    ensures forall i :: 0 <= i < |w| ==> r[i] == (w[i].comando, w[i].resposta)
  {
    seq(|w|, i requires 0 <= i < |w| => (w[i].comando, w[i].resposta))
  }

  /** `obter_contexto(limite)`: the window as (comando, resposta) pairs, or
      the binding error for a limit outside 64 bits. */
  function Context(h: Store, limite: int): (r: Outcome<seq<(string, string)>>)
    ensures r.Raised? <==> !FitsInt64(limite)
    ensures r.Raised? ==> r.error == IntTooLarge
    ensures r.Returned? ==> |r.value| == WindowSize(|h.rows|, limite)
    ensures r.Returned? ==> forall i :: 0 <= i < |r.value| ==>
      var x := h.rows[|h.rows| - |r.value| + i]; r.value[i] == (x.comando, x.resposta)
  {
    match Window(h, limite)
    case Raised(e) => Raised(e)
    case Returned(w) => Returned(Pairs(w))
  }

  /** Right after an append, a window of one holds exactly the new pair. */
  lemma ContextOfOneAfterAppend(h: Store, comando: string, resposta: string)
    requires Append(h, comando, resposta).Returned?
    ensures Context(Append(h, comando, resposta).value.store, 1) == Returned([(comando, resposta)])
  {
    var g := Append(h, comando, resposta).value.store;
    assert FitsInt64(1);
    var c := Context(g, 1).value;
    assert |c| == 1 && c[0] == (comando, resposta);
    assert c == [(comando, resposta)];
  }

  /** Every window is a suffix of a larger one: growing the limit only adds
      older rows in front. */
  lemma WindowGrowsBackwards(h: Store, a: int, b: int)
    requires 0 <= a <= b
    ensures var wa, wb := Newest(h, a), Newest(h, b);
      |wa| <= |wb| && wa == wb[|wb| - |wa|..]
  {
  }

  /** Whether a row matches `comando LIKE '%term%' OR resposta LIKE '%term%'`.
      Every row matches the empty term. */
  predicate Matches(x: Interaction, term: string)
    ensures term == "" ==> Matches(x, term)
  {
    EmptyTermMatchesAll(x.comando);
    LikeOperator(x.comando, SubstringPattern(term)) || LikeOperator(x.resposta, SubstringPattern(term))
  }

  /** `WHERE ... ORDER BY id` over rows kept in id order. */
  function Filter(rows: seq<Interaction>, term: string): (r: seq<Interaction>)
    ensures forall x :: x in r <==> x in rows && Matches(x, term)
    ensures Ascending(rows) ==> Ascending(r)
    ensures |r| <= |rows|
  {
    if |rows| == 0 then []
    else
      var rest := Filter(rows[1..], term);
      assert forall x :: x in rows[1..] ==> x in rows;
      if Matches(rows[0], term) then
        KeepHead(rows, rest);
        [rows[0]] + rest
      else rest
  }

  /** Putting the first row back in front of rows kept from the others
      preserves ascending order. */
  lemma KeepHead(rows: seq<Interaction>, rest: seq<Interaction>)
    requires |rows| > 0
    requires forall x :: x in rest ==> x in rows[1..]
    requires Ascending(rows) ==> Ascending(rest)
    ensures Ascending(rows) ==> Ascending([rows[0]] + rest)
  {
    if Ascending(rows) {
      forall k | 0 <= k < |rest| ensures rows[0].id < rest[k].id {
        assert rest[k] in rest;
        var j :| 0 <= j < |rows[1..]| && rows[1..][j] == rest[k];
        assert rows[j + 1] == rest[k];
      }
    }
  }

  /** The rows `buscar_no_historico(termo)` fetches. Binding the pattern
      `%termo%` fails, whatever the table holds, when its UTF-8 encoding is
      longer than a C `int` can count or than SQLite's cap on any string.
      Otherwise SQLite measures the pattern when it first evaluates `LIKE`,
      that is, on the first row, and a pattern over the `LIKE` cap raises
      there. */
  function Search(h: Store, termo: string): (r: Outcome<seq<Interaction>>)
    ensures Utf8Length(termo) + 2 > IntMax ==> r == Raised(StringTooLong)
    ensures SqliteMaxLength < Utf8Length(termo) + 2 <= IntMax ==> r == Raised(StringTooBig)
    ensures Utf8Length(termo) + 2 <= SqliteMaxLength ==>
      (r.Raised? <==> |h.rows| > 0 && Utf8Length(termo) + 2 > LikePatternLimit)
    ensures Utf8Length(termo) + 2 <= SqliteMaxLength && r.Raised? ==> r.error == PatternTooComplex
    ensures r.Returned? ==> forall x :: x in r.value <==> x in h.rows && Matches(x, termo)
    ensures r.Returned? && Valid(h) ==> Ascending(r.value)
  {
    var pattern := SubstringPattern(termo);
    Utf8LengthConcat("%" + termo, "%");
    Utf8LengthConcat("%", termo);
    if Utf8Length(pattern) > IntMax then Raised(StringTooLong)
    else if Utf8Length(pattern) > SqliteMaxLength then Raised(StringTooBig)
    else if |h.rows| > 0 && Utf8Length(pattern) > LikePatternLimit then Raised(PatternTooComplex)
    else Returned(Filter(h.rows, termo))
  }

  /** For a term without `%`, `_` or U+0000 and short enough for SQLite, a
      row is found exactly when the term occurs in its command or its
      answer, ignoring ASCII case; both columns are read only up to their
      first U+0000. */
  lemma SearchIsSubstring(h: Store, termo: string, x: Interaction)
    requires Literal(termo) && NoNul(termo)
    requires Utf8Length(termo) + 2 <= LikePatternLimit
    ensures Search(h, termo).Returned?
    ensures x in Search(h, termo).value <==>
      x in h.rows
      && (Contains(Lower(CutAtNul(x.comando)), Lower(termo))
          || Contains(Lower(CutAtNul(x.resposta)), Lower(termo)))
  {
    SubstringOperator(x.comando, termo);
    SubstringOperator(x.resposta, termo);
  }

  /** A term without `%` or `_` that holds U+0000 is cut there, and the
      closing `%` is lost with the rest: a row is then found exactly when
      its command or its answer, read up to its first U+0000, ends with what
      the term holds before U+0000, ignoring ASCII case. */
  lemma SearchWithNulIsSuffix(h: Store, termo: string, x: Interaction)
    requires Literal(termo) && !NoNul(termo)
    requires Utf8Length(termo) + 2 <= LikePatternLimit
    ensures Search(h, termo).Returned?
    ensures x in Search(h, termo).value <==>
      x in h.rows
      && (EndsWith(Lower(CutAtNul(x.comando)), Lower(CutAtNul(termo)))
          || EndsWith(Lower(CutAtNul(x.resposta)), Lower(CutAtNul(termo))))
  {
    SuffixOperator(x.comando, termo);
    SuffixOperator(x.resposta, termo);
  }

  /** The empty term finds every row, in table order. */
  lemma SearchEmptyFindsAll(h: Store)
    ensures Search(h, "") == Returned(h.rows)
  {
    FilterEmptyKeepsAll(h.rows);
  }

  lemma {:induction false} FilterEmptyKeepsAll(rows: seq<Interaction>)
    ensures Filter(rows, "") == rows
  {
    if |rows| > 0 {
      FilterEmptyKeepsAll(rows[1..]);
    }
  }

  /** The confirmation `limpar_historico` prints. */
  const ClearedMessage: string := "\U{1F9F9} Histórico limpo com sucesso!"

  /** The table after a clear, and what the clear printed. */
  datatype Cleared = Cleared(store: Store, printed: string)

  /** `limpar_historico`: every row is deleted, then the confirmation
      line is printed. The table empties but `sqlite_sequence` keeps the last id
      issued. */
  function Clear(h: Store): (r: Cleared)
    ensures r.store.rows == [] && r.store.lastIssued == h.lastIssued
    ensures Valid(h) ==> Valid(r.store)
    ensures Valid(h) ==> forall i :: 0 <= i < |h.rows| ==> h.rows[i].id < NextId(r.store)
    ensures r.printed == ClearedMessage + "\n"
  {
    Cleared(Store([], h.lastIssued), ClearedMessage + "\n")
  }

  /** After a clear, no window and no search finds anything: a search then
      succeeds with no rows for any term SQLite accepts, however far over
      the `LIKE` cap. */
  lemma ClearLeavesNothing(h: Store, n: int, termo: string)
    ensures Newest(Clear(h).store, n) == []
    ensures FitsInt64(n) ==> Context(Clear(h).store, n) == Returned([])
    ensures Utf8Length(termo) + 2 <= SqliteMaxLength ==> Search(Clear(h).store, termo) == Returned([])
  {
    var c := Clear(h).store;
    assert |c.rows| == 0;
    assert Filter(c.rows, termo) == [];
  }

  /** A row appended after a clear gets an id above every id issued before
      it: ids are never reused. */
  lemma NoIdReuseAfterClear(h: Store, comando: string, resposta: string)
    requires Valid(h)
    requires Append(Clear(h).store, comando, resposta).Returned?
    ensures var id := Append(Clear(h).store, comando, resposta).value.id;
      id == h.lastIssued + 1 && forall i :: 0 <= i < |h.rows| ==> h.rows[i].id < id
  {
  }

  // ---------------------------------------------------------------------
  // Rendering the log as text

  const EmptyHistoryMessage: string := "\U{1F4ED} Histórico vazio."

  /** The head of a rendered row: a new line, the id badge and the id,
      then the space before the command. */
  function RowHead(id: int): (s: string)
    ensures |s| > 3 && s[0] == '\n'
  {
    "\n\U{1F194} " + IntToString(id) + " "
  }

  /** The f-string `mostrar_historico` and `buscar_no_historico` pass to
      `print` for one row (without the newline `print` adds). */
  function RowLine(x: Interaction): (s: string)
    ensures StartsWith(s, RowHead(x.id))
  {
    var s := "\n\U{1F194} " + IntToString(x.id) + " \U{2014} Comando: " + x.comando + "\nResposta: " + x.resposta;
    assert s == RowHead(x.id) + ("\U{2014} Comando: " + x.comando + "\nResposta: " + x.resposta);
    s
  }

  /** The text `mostrar_historico_interface` appends for one row. */
  function RowBlock(x: Interaction): (s: string)
    ensures StartsWith(s, RowHead(x.id))
  {
    var s := "\n\U{1F194} " + IntToString(x.id) + " \U{2014} Comando: " + x.comando + "\nResposta: " + x.resposta + "\n";
    assert s == RowHead(x.id) + ("\U{2014} Comando: " + x.comando + "\nResposta: " + x.resposta + "\n");
    s
  }

  /** The id printed at the head of a row names that row's id, whatever
      the command and the answer hold: a rendered row that begins with the
      head for `id` is the row numbered `id`. */
  lemma RowHeadNamesId(id: int, x: Interaction)
    requires StartsWith(RowBlock(x), RowHead(id))
    ensures x.id == id
  {
    HeadsAgree(RowBlock(x), id, x.id);
  }

  /** A text opens with the head of one id at most. */
  lemma HeadsAgree(s: string, a: int, b: int)
    requires StartsWith(s, RowHead(a)) && StartsWith(s, RowHead(b))
    ensures a == b
  {
    var badge := "\n\U{1F194} ";
    var ta, tb := IntToString(a) + " ", IntToString(b) + " ";
    assert RowHead(a) == badge + ta;
    assert RowHead(b) == badge + tb;
    var t := s[|badge|..];
    assert t[..|ta|] == s[|badge|..|badge| + |ta|] == RowHead(a)[|badge|..] == ta;
    assert t[..|tb|] == s[|badge|..|badge| + |tb|] == RowHead(b)[|badge|..] == tb;
    SpaceDelimited(t, IntToString(a), IntToString(b));
    IntToStringInjective(a, b);
  }

  /** `texto += block` over the rows, oldest first. */
  function Blocks(rows: seq<Interaction>): (s: string)
    ensures |rows| > 0 ==> StartsWith(s, RowBlock(rows[0]))
  {
    if |rows| == 0 then "" else RowBlock(rows[0]) + Blocks(rows[1..])
  }

  /** Rendering two runs of rows one after the other is rendering them
      together: every row appears, in order, once. */
  lemma {:induction false} BlocksConcat(a: seq<Interaction>, b: seq<Interaction>)
    ensures Blocks(a + b) == Blocks(a) + Blocks(b)
    decreases |a|
  {
    if |a| == 0 {
      assert a + b == b;
    } else {
      assert (a + b)[0] == a[0];
      assert (a + b)[1..] == a[1..] + b;
      BlocksConcat(a[1..], b);
    }
  }

  /** What one `print(line)` per row writes to standard output: the first
      row's line and its newline come first. */
  function PrintedRows(rows: seq<Interaction>): (s: string)
    ensures |rows| > 0 ==> StartsWith(s, RowLine(rows[0]) + "\n")
    ensures |rows| == 0 <==> s == ""
  {
    if |rows| == 0 then "" else RowLine(rows[0]) + "\n" + PrintedRows(rows[1..])
  }

  /** `mostrar_historico_interface(limite)` (`limite` is 10 when the caller
      gives none): every row of the window rendered oldest first, or the
      empty-history message when there is nothing to show. */
  function ShowHistory(h: Store, limite: int): (r: Outcome<string>)
    ensures r.Raised? <==> !FitsInt64(limite)
    ensures r.Raised? ==> r.error == IntTooLarge
    ensures r.Returned? ==> (r.value == EmptyHistoryMessage <==> WindowSize(|h.rows|, limite) == 0)
    ensures r.Returned? && WindowSize(|h.rows|, limite) > 0 ==>
      r.value == Blocks(h.rows[|h.rows| - WindowSize(|h.rows|, limite)..])
  {
    match Window(h, limite)
    case Raised(e) => Raised(e)
    case Returned(w) =>
      if |w| > 0 then
        assert Blocks(w)[0] == '\n';
        Returned(Blocks(w))
      else Returned(EmptyHistoryMessage)
  }

  /** `mostrar_historico(limite)`: what it prints to standard output. It
      prints exactly the text `mostrar_historico_interface` returns, plus
      `print`'s final newline when the log is empty; both raise the same
      binding error, before printing anything, for a limit outside 64 bits. */
  function PrintHistory(h: Store, limite: int): (r: Outcome<string>)
    ensures r.Raised? <==> ShowHistory(h, limite).Raised?
    ensures r.Raised? ==> r.error == ShowHistory(h, limite).error
    ensures r.Returned? ==>
      r.value == ShowHistory(h, limite).value + (if WindowSize(|h.rows|, limite) == 0 then "\n" else "")
  {
    match Window(h, limite)
    case Raised(e) => Raised(e)
    case Returned(w) =>
      PrintedRowsAreBlocks(w);
      if |w| > 0 then Returned(PrintedRows(w)) else Returned(EmptyHistoryMessage + "\n")
  }

  lemma {:induction false} PrintedRowsAreBlocks(rows: seq<Interaction>)
    ensures PrintedRows(rows) == Blocks(rows)
  {
    if |rows| > 0 {
      PrintedRowsAreBlocks(rows[1..]);
      assert RowLine(rows[0]) + "\n" == RowBlock(rows[0]);
    }
  }

  /** The opening of the line `buscar_no_historico` prints when nothing
      matches; the term follows it in single quotes. */
  const NothingFoundLead: string := "\U{1F50D} Nada encontrado para '"

  /** The line `buscar_no_historico(termo)` prints when nothing matches. It
      opens with the magnifier, never with the newline every row block
      opens with, and the term can be read back between the quotes. */
  function NothingFound(termo: string): (r: string)
    ensures StartsWith(r, NothingFoundLead) && r[0] == '\U{1F50D}'
    ensures |r| == |NothingFoundLead| + |termo| + 3
    ensures r[|NothingFoundLead|..|r| - 3] == termo
  {
    NothingFoundLead + termo + "'.\n"
  }

  /** What `buscar_no_historico(termo)` prints. There is no `try` around the
      query, so the `sqlite3` error escapes the function unchanged. */
  function SearchOutput(h: Store, termo: string): (r: Outcome<string>)
    ensures r.Raised? <==> Search(h, termo).Raised?
    ensures r.Raised? ==> r.error == Search(h, termo).error
    ensures r.Returned? && |Search(h, termo).value| == 0 ==> r.value == NothingFound(termo)
    ensures r.Returned? && |Search(h, termo).value| > 0 ==> r.value == Blocks(Search(h, termo).value)
  {
    match Search(h, termo)
    case Raised(e) => Raised(e)
    case Returned(found) =>
      PrintedRowsAreBlocks(found);
      if |found| > 0 then Returned(PrintedRows(found)) else Returned(NothingFound(termo))
  }
}

=== FILE: lint.dfy ===
/** `analisar_codigo`: runs flake8, pylint, mypy and black over the code
    and turns what each prints into one verdict section. */
module Lint {
  import opened Outcomes
  import opened Text

  /** Every "nothing to report" section opens with this check mark. */
  const CleanMark: char := '\U{2705}'

  const Flake8Header: string := "\U{26A0}\U{FE0F} Flake8 encontrou problemas:\n"
  const Flake8Clean: string := "\U{2705} Flake8: Nenhum problema encontrado."
  const PylintHeader: string := "\U{26A0}\U{FE0F} Pylint encontrou problemas:\n"
  const PylintClean: string := "\U{2705} Pylint: Nenhum problema encontrado."
  const MypyHeader: string := "\U{26A0}\U{FE0F} Mypy encontrou problemas de tipos:\n"
  const MypyClean: string := "\U{2705} Mypy: Tipos corretos ou não utilizados."
  const BlackAdvice: string :=
    "\U{1F4A1} Black: O código pode ser " + "melhor formatado. " + "Use o Black para padronizar."
  const BlackClean: string := "\U{2705} Black: O código já está bem formatado."

  /** Whether a section is the "nothing to report" variant. */
  predicate IsClean(section: string)
  {
    |section| > 0 && section[0] == CleanMark
  }

  /** flake8 complains whenever it prints anything. */
  predicate Flake8Warns(stdout: string)
  {
    |stdout| > 0
  }

  /** pylint complains when it prints something other than its score line. */
  predicate PylintWarns(stdout: string)
  {
    |stdout| > 0 && !Contains(stdout, "Your code has been rated")
  }

  /** mypy complains when it prints something without "Success". */
  predicate MypyWarns(stdout: string)
  {
    |stdout| > 0 && !Contains(stdout, "Success")
  }

  /** black would change the formatting. */
  predicate BlackWarns(stdout: string)
  {
    Contains(stdout, "would reformat")
  }

  /** The warning variant quotes the tool's output after a header; the
      other variant is the fixed "no problem" line. */
  function Report(warns: bool, header: string, stdout: string, clean: string): (s: string)
    requires |header| > 0 && !IsClean(header) && IsClean(clean)
    ensures IsClean(s) <==> !warns
    ensures warns ==> StartsWith(s, header) && s[|header|..] == stdout
  {
    if warns then
      assert (header + stdout)[..|header|] == header;
      assert (header + stdout)[0] == header[0];
      header + stdout
    else clean
  }

  function Flake8Section(stdout: string): (s: string)
    ensures IsClean(s) <==> !Flake8Warns(stdout)
    ensures Flake8Warns(stdout) ==> s == Flake8Header + stdout
  {
    Report(Flake8Warns(stdout), Flake8Header, stdout, Flake8Clean)
  }

  function PylintSection(stdout: string): (s: string)
    ensures IsClean(s) <==> !PylintWarns(stdout)
    ensures PylintWarns(stdout) ==> s == PylintHeader + stdout
  {
    Report(PylintWarns(stdout), PylintHeader, stdout, PylintClean)
  }

  function MypySection(stdout: string): (s: string)
    ensures IsClean(s) <==> !MypyWarns(stdout)
    ensures MypyWarns(stdout) ==> s == MypyHeader + stdout
  {
    Report(MypyWarns(stdout), MypyHeader, stdout, MypyClean)
  }

  function BlackSection(stdout: string): (s: string)
    ensures IsClean(s) <==> !BlackWarns(stdout)
    ensures !IsClean(s) ==> s == BlackAdvice
  {
    assert BlackAdvice[0] != CleanMark;
    if BlackWarns(stdout) then BlackAdvice else BlackClean
  }

  /** `analisar_codigo(codigo)`, given what each of the four
      `subprocess.run` calls gives back: the captured standard output, or
      the exception it raised (the tool is not installed). The first such
      exception escapes the function and no later tool is run; otherwise
      the report always has the four sections in the order flake8, pylint,
      mypy, black. */
  function Analyze(flake8: Outcome<string>, pylint: Outcome<string>,
                   mypy: Outcome<string>, black: Outcome<string>): (r: Outcome<string>)
    ensures r.Returned? <==> flake8.Returned? && pylint.Returned? && mypy.Returned? && black.Returned?
    ensures flake8.Raised? ==> r == flake8
    ensures flake8.Returned? && pylint.Raised? ==> r == pylint
    ensures flake8.Returned? && pylint.Returned? && mypy.Raised? ==> r == mypy
    ensures flake8.Returned? && pylint.Returned? && mypy.Returned? && black.Raised? ==> r == black
    ensures r.Returned? ==>
      r.value == Flake8Section(flake8.value) + Separator + PylintSection(pylint.value) + Separator
                 + MypySection(mypy.value) + Separator + BlackSection(black.value)
  {
    match flake8
    case Raised(e) => Raised(e)
    case Returned(f) =>
      match pylint
      case Raised(e) => Raised(e)
      case Returned(p) =>
        match mypy
        case Raised(e) => Raised(e)
        case Returned(m) =>
          match black
          case Raised(e) => Raised(e)
          case Returned(b) =>
            var resultados := [Flake8Section(f), PylintSection(p), MypySection(m), BlackSection(b)];
            JoinFour(resultados);
            Returned(Join(Separator, resultados))
  }

  lemma JoinFour(parts: seq<string>)
    requires |parts| == 4
    ensures Join(Separator, parts) ==
      parts[0] + Separator + parts[1] + Separator + parts[2] + Separator + parts[3]
  {
    assert parts[1..][1..] == parts[2..];
    assert parts[2..][1..] == [parts[3]];
    assert Join(Separator, parts[2..]) == parts[2] + Separator + parts[3];
    assert Join(Separator, parts[1..]) == parts[1] + Separator + (parts[2] + Separator + parts[3]);
  }

  /** The report opens with flake8's verdict: it starts with the check
      mark exactly when flake8 printed nothing. */
  lemma ReportOpensWithFlake8(f: string, p: string, m: string, b: string)
    ensures Analyze(Returned(f), Returned(p), Returned(m), Returned(b)).Returned?
    ensures IsClean(Analyze(Returned(f), Returned(p), Returned(m), Returned(b)).value) <==> |f| == 0
  {
    var r := Analyze(Returned(f), Returned(p), Returned(m), Returned(b)).value;
    var s := Flake8Section(f);
    assert |s| > 0 by {
      if Flake8Warns(f) {
        assert |s| == |Flake8Header| + |f|;
      }
    }
    assert r[0] == s[0];
  }

  /** Any pylint output that holds the rating line counts as clean, however
      it rates the code and whatever messages it lists above that line. */
  lemma PylintScoreIsClean(stdout: string)
    requires Contains(stdout, "Your code has been rated")
    ensures IsClean(PylintSection(stdout))
  {
  }
}

=== FILE: outcomes.dfy ===
/** The result of calling into code outside the model (an HTTP API, a
    translator, a subprocess): either the call returned a value, or it
    raised a Python `Exception` whose `str(e)` is `error`. */
module Outcomes {

  datatype Outcome<+T> = Returned(value: T) | Raised(error: string)

  datatype Option<+T> = None | Some(value: T)

}

=== FILE: ranking.dfy ===
/** The `ranking` table: quiz points and quiz counts per player name. */
module Ranking {

  /** The `pontos` and `quizzes` columns of one row. */
  datatype Entry = Entry(pontos: int, quizzes: int)

  /** The table, keyed by its primary key `nome` (compared byte for byte). */
  type Table = map<string, Entry>

  /** The column defaults a new row starts with. */
  const Fresh: Entry := Entry(0, 0)

  /** Registering a player: a row for the name is created with the column
      defaults unless one already exists. */
  function Register(t: Table, nome: string): (r: Table)
    ensures r.Keys == t.Keys + {nome}
    ensures forall k :: k in t ==> r[k] == t[k]
    ensures nome !in t ==> r[nome] == Fresh
  {
    if nome in t then t else t[nome := Fresh]
  }

  /** Registering a name twice is the same as registering it once. */
  lemma RegisterIdempotent(t: Table, nome: string)
    ensures Register(Register(t, nome), nome) == Register(t, nome)
  {
  }

  /** `atualizar_pontuacao(nome, pontos_ganhos)`: the named player's row
      gains the points and one more quiz; no other row is touched, and an
      unknown name changes nothing. */
  function AddScore(t: Table, nome: string, ganhos: int): (r: Table)
    ensures r.Keys == t.Keys
    ensures forall k :: k in t && k != nome ==> r[k] == t[k]
    ensures nome in t ==> r[nome] == Entry(t[nome].pontos + ganhos, t[nome].quizzes + 1)
    ensures nome !in t ==> r == t
  {
    if nome in t then t[nome := Entry(t[nome].pontos + ganhos, t[nome].quizzes + 1)] else t
  }

  /** One `atualizar_pontuacao` per element of `ganhos`, in order. */
  function AddScores(t: Table, nome: string, ganhos: seq<int>): (r: Table)
    ensures r.Keys == t.Keys
    decreases |ganhos|
  {
    if |ganhos| == 0 then t else AddScores(AddScore(t, nome, ganhos[0]), nome, ganhos[1..])
  }

  function Sum(xs: seq<int>): int
  {
    if |xs| == 0 then 0 else xs[0] + Sum(xs[1..])
  }

  /** A run of updates adds up the points and counts the quizzes for the
      named player, and leaves every other player as it was. */
  lemma {:induction false} AddScoresAccumulate(t: Table, nome: string, ganhos: seq<int>)
    ensures forall k :: k in t && k != nome ==> AddScores(t, nome, ganhos)[k] == t[k]
    ensures nome in t ==>
      AddScores(t, nome, ganhos)[nome] == Entry(t[nome].pontos + Sum(ganhos), t[nome].quizzes + |ganhos|)
    decreases |ganhos|
  {
    if |ganhos| > 0 {
      AddScoresAccumulate(AddScore(t, nome, ganhos[0]), nome, ganhos[1..]);
    }
  }

  /** With non-negative gains, a player's points and quiz count never go
      down. */
  lemma {:induction false} ScoresNeverDecrease(t: Table, nome: string, ganhos: seq<int>)
    requires nome in t
    requires forall i :: 0 <= i < |ganhos| ==> ganhos[i] >= 0
    ensures AddScores(t, nome, ganhos)[nome].pontos >= t[nome].pontos
    ensures AddScores(t, nome, ganhos)[nome].quizzes >= t[nome].quizzes
    decreases |ganhos|
  {
    AddScoresAccumulate(t, nome, ganhos);
    SumNonNegative(ganhos);
  }

  lemma {:induction false} SumNonNegative(xs: seq<int>)
    requires forall i :: 0 <= i < |xs| ==> xs[i] >= 0
    ensures Sum(xs) >= 0
  {
    if |xs| > 0 {
      SumNonNegative(xs[1..]);
    }
  }

  /** A new player registered into any table and scored +10 then +5 ends
      with 15 points over 2 quizzes. */
  lemma AnaScenario(t: Table)
    requires "ana" !in t
    ensures AddScores(Register(t, "ana"), "ana", [10, 5])["ana"] == Entry(15, 2)
  {
    AddScoresAccumulate(Register(t, "ana"), "ana", [10, 5]);
  }

  // ---------------------------------------------------------------------
  // `mostrar_ranking`: every row, most points first, ties broken by the
  // larger quiz count

  datatype Standing = Standing(nome: string, entry: Entry)

  /** `a` may be listed before `b`: more points, or as many points and at
      least as many quizzes. */
  predicate RanksAtLeast(a: Entry, b: Entry)
  {
    a.pontos > b.pontos || (a.pontos == b.pontos && a.quizzes >= b.quizzes)
  }

  predicate Ordered(rs: seq<Standing>)
  {
    forall i, j :: 0 <= i < j < |rs| ==> RanksAtLeast(rs[i].entry, rs[j].entry)
  }

  predicate DistinctNames(rs: seq<Standing>)
  {
    forall i, j :: 0 <= i < j < |rs| ==> rs[i].nome != rs[j].nome
  }

  /** Places `x` in front of the first standing it ranks at least as high as. */
  function Insert(rs: seq<Standing>, x: Standing): (r: seq<Standing>)
    requires Ordered(rs)
    ensures Ordered(r)
    ensures |r| == |rs| + 1
    ensures forall y :: y in r <==> y in rs || y == x
  {
    if |rs| == 0 then [x]
    else if RanksAtLeast(x.entry, rs[0].entry) then [x] + rs
    else
      var rest := Insert(rs[1..], x);
      assert forall k :: 0 <= k < |rest| ==> RanksAtLeast(rs[0].entry, rest[k].entry) by {
        forall k | 0 <= k < |rest| ensures RanksAtLeast(rs[0].entry, rest[k].entry) {
          assert rest[k] in rest;
          if rest[k] != x {
            var j :| 0 <= j < |rs[1..]| && rs[1..][j] == rest[k];
            assert rs[j + 1] == rest[k];
          }
        }
      }
      [rs[0]] + rest
  }

  /** Inserting a player not yet listed keeps every name listed once. */
  lemma {:induction false} InsertKeepsNamesDistinct(rs: seq<Standing>, x: Standing)
    requires Ordered(rs) && DistinctNames(rs)
    requires forall i :: 0 <= i < |rs| ==> rs[i].nome != x.nome
    ensures DistinctNames(Insert(rs, x))
  {
    if |rs| > 0 && !RanksAtLeast(x.entry, rs[0].entry) {
      var rest := Insert(rs[1..], x);
      InsertKeepsNamesDistinct(rs[1..], x);
      forall k | 0 <= k < |rest| ensures rs[0].nome != rest[k].nome {
        assert rest[k] in rest;
        if rest[k] != x {
          var j :| 0 <= j < |rs[1..]| && rs[1..][j] == rest[k];
          assert rs[j + 1] == rest[k];
        }
      }
    }
  }

  /** The rows `mostrar_ranking` lists: every player exactly once, with
      their own points and quizzes, best first. Rows that tie on both
      columns may come in any order, as in SQLite. */
  method Standings(t: Table) returns (rs: seq<Standing>)
    ensures Ordered(rs)
    ensures DistinctNames(rs)
    ensures forall i :: 0 <= i < |rs| ==> rs[i].nome in t && rs[i].entry == t[rs[i].nome]
    ensures forall k :: k in t ==> exists i :: 0 <= i < |rs| && rs[i].nome == k
  {
    rs := [];
    var rest := t.Keys;
    while rest != {}
      invariant rest <= t.Keys
      invariant Ordered(rs)
      invariant DistinctNames(rs)
      invariant forall i :: 0 <= i < |rs| ==> rs[i].nome in t && rs[i].nome !in rest && rs[i].entry == t[rs[i].nome]
      invariant forall k :: k in t && k !in rest ==> exists i :: 0 <= i < |rs| && rs[i].nome == k
      decreases |rest|
    {
      var nome :| nome in rest;
      var x := Standing(nome, t[nome]);
      var next := Insert(rs, x);
      InsertKeepsNamesDistinct(rs, x);
      forall k | k in t && k !in rest - {nome}
        ensures exists i :: 0 <= i < |next| && next[i].nome == k
      {
        if k == nome {
          assert x in next;
        } else {
          var i :| 0 <= i < |rs| && rs[i].nome == k;
          assert rs[i] in next;
        }
      }
      forall i | 0 <= i < |next|
        ensures next[i].nome in t && next[i].nome !in rest - {nome} && next[i].entry == t[next[i].nome]
      {
        assert next[i] in next;
      }
      rs := next;
      rest := rest - {nome};
    }
  }
}

=== FILE: sql_like.dfy ===
/** SQLite's `LIKE` operator with its default settings: `%` matches any
    run of characters, `_` matches exactly one character, there is no
    escape character, and letters compare case-insensitively for ASCII
    only. */
module SqlLike {
  import opened Text

  /** Two characters are equal up to ASCII case. */
  predicate SameLetter(a: char, b: char)
  {
    LowerChar(a) == LowerChar(b)
  }

  /** `s LIKE p`. A pattern without wildcards matches exactly the strings
      equal to it up to ASCII case. */
  predicate Like(s: string, p: string)
    ensures Literal(p) ==> (Like(s, p) <==> |s| == |p| && Lower(s) == Lower(p))
    decreases |p|, |s|
  {
    if |p| == 0 then |s| == 0
    else if p[0] == '%' then Like(s, p[1..]) || (|s| > 0 && Like(s[1..], p))
    else if p[0] == '_' then |s| > 0 && Like(s[1..], p[1..])
    else
      assert Literal(p) ==> Literal(p[1..]);
      LowerCons(p);
      if |s| > 0 then LowerCons(s); |s| > 0 && SameLetter(s[0], p[0]) && Like(s[1..], p[1..])
      else false
  }

  /** Lower-casing a non-empty string lower-cases its head and its tail. */
  lemma LowerCons(s: string)
    requires |s| > 0
    ensures Lower(s) == [LowerChar(s[0])] + Lower(s[1..])
  {
  }

  /** A term that holds neither of the two wildcard characters. */
  predicate Literal(t: string)
  {
    forall i :: 0 <= i < |t| ==> t[i] != '%' && t[i] != '_'
  }

  /** The pattern `buscar_no_historico` builds from a search term. */
  function SubstringPattern(term: string): (p: string)
    ensures |p| == |term| + 2 && p[0] == '%' && p[|p| - 1] == '%'
    ensures p[1..|p| - 1] == term
  {
    "%" + term + "%"
  }

  /** A lone `%` matches every string. */
  lemma {:induction false} PercentMatchesAll(s: string)
    ensures Like(s, "%")
    decreases |s|
  {
    if |s| > 0 {
      PercentMatchesAll(s[1..]);
    }
  }

  /** `t%` with a literal `t` matches exactly the strings that begin with
      `t` up to ASCII case. */
  lemma {:induction false} LiteralPrefix(s: string, t: string)
    requires Literal(t)
    ensures Like(s, t + "%") <==> |t| <= |s| && Lower(s[..|t|]) == Lower(t)
    decreases |t|
  {
    var p := t + "%";
    if |t| == 0 {
      assert p == "%";
      PercentMatchesAll(s);
    } else {
      assert p[0] == t[0] && p[1..] == t[1..] + "%";
      if |s| > 0 {
        LiteralPrefix(s[1..], t[1..]);
      }
      if |t| <= |s| {
        var a, b := Lower(s[..|t|]), Lower(t);
        assert Lower(s[1..][..|t| - 1]) == a[1..];
        assert Lower(t[1..]) == b[1..];
        assert a == b <==> a[0] == b[0] && a[1..] == b[1..];
      }
    }
  }

  /** `%q` matches `s` exactly when `q` matches some suffix of `s`. */
  lemma {:induction false} LeadingPercent(s: string, q: string)
    ensures Like(s, "%" + q) <==> exists k :: 0 <= k <= |s| && Like(s[k..], q)
    decreases |s|
  {
    var p := "%" + q;
    assert p[0] == '%' && p[1..] == q;
    assert s[0..] == s;
    if |s| > 0 {
      LeadingPercent(s[1..], q);
      if k :| 0 <= k <= |s[1..]| && Like(s[1..][k..], q) {
        assert s[1..][k..] == s[k + 1..];
      }
      if k :| 0 < k <= |s| && Like(s[k..], q) {
        assert s[k..] == s[1..][k - 1..];
      }
    }
  }

  /** A match of `term%` at position `k` of `s` is an occurrence of the
      lower-cased term in the lower-cased string, and conversely. */
  lemma MatchAt(s: string, term: string, k: int)
    requires Literal(term)
    requires 0 <= k <= |s|
    ensures Like(s[k..], term + "%") <==> OccursAt(Lower(s), Lower(term), k)
  {
    LiteralPrefix(s[k..], term);
    if k + |term| <= |s| {
      assert s[k..][..|term|] == s[k..k + |term|];
      LowerSlice(s, k, k + |term|);
    }
  }

  /** For a term without wildcards, `s LIKE '%term%'` is a case-insensitive
      substring test: it holds exactly when the lower-cased term occurs in
      the lower-cased string. */
  lemma SubstringMatch(s: string, term: string)
    requires Literal(term)
    ensures Like(s, SubstringPattern(term)) <==> Contains(Lower(s), Lower(term))
  {
    var q := term + "%";
    assert SubstringPattern(term) == "%" + q;
    LeadingPercent(s, q);
    if k :| 0 <= k <= |s| && Like(s[k..], q) {
      MatchAt(s, term, k);
    }
    if i :| OccursAt(Lower(s), Lower(term), i) {
      MatchAt(s, term, i);
    }
  }

  /** A string without U+0000. */
  predicate NoNul(s: string)
  {
    forall i :: 0 <= i < |s| ==> s[i] != '\0'
  }

  /** The part of a text value that `LIKE` reads: SQLite walks both operands
      as NUL-terminated strings, so it sees only what comes before the
      first U+0000. */
  function CutAtNul(s: string): (r: string)
    ensures NoNul(r)
    ensures StartsWith(s, r)
    ensures |r| < |s| ==> s[|r|] == '\0'
    ensures NoNul(s) ==> r == s
    decreases |s|
  {
    if |s| == 0 || s[0] == '\0' then ""
    else
      var rest := CutAtNul(s[1..]);
      assert NoNul(s) ==> NoNul(s[1..]) && s == [s[0]] + s[1..];
      [s[0]] + rest
  }

  /** Cutting a concatenation: the cut falls in the first part when it holds
      U+0000, and in the second part otherwise. */
  lemma {:induction false} CutAtNulConcat(a: string, b: string)
    ensures CutAtNul(a + b) == if NoNul(a) then a + CutAtNul(b) else CutAtNul(a)
    decreases |a|
  {
    if |a| == 0 {
      assert a + b == b;
    } else if a[0] == '\0' {
      assert (a + b)[0] == a[0];
      assert !NoNul(a);
    } else {
      var ab := a + b;
      assert ab[0] == a[0] && ab[1..] == a[1..] + b;
      assert CutAtNul(ab) == [a[0]] + CutAtNul(a[1..] + b);
      CutAtNulConcat(a[1..], b);
      assert CutAtNul(a) == [a[0]] + CutAtNul(a[1..]);
      if NoNul(a[1..]) {
        assert NoNul(a);
        assert [a[0]] + (a[1..] + CutAtNul(b)) == a + CutAtNul(b);
      } else {
        var i :| 0 <= i < |a[1..]| && a[1..][i] == '\0';
        assert a[i + 1] == '\0';
      }
    }
  }

  /** `s LIKE p` as SQLite evaluates it on two text values: the matcher
      applied to what each holds before its first U+0000. On text without
      U+0000 it is the matcher itself. */
  predicate LikeOperator(s: string, p: string)
    ensures NoNul(s) && NoNul(p) ==> (LikeOperator(s, p) <==> Like(s, p))
  {
    Like(CutAtNul(s), CutAtNul(p))
  }

  /** U+0000 ends the value: `'ab\0c' LIKE 'ab'` holds. */
  lemma NulEndsValue()
    ensures LikeOperator("ab\0c", "ab")
  {
  }

  /** U+0000 hides what follows it from a substring search:
      `'a\0x' LIKE '%x%'` fails. */
  lemma NulHidesRest()
    ensures !LikeOperator("a\0x", "%x%")
  {
  }

  /** U+0000 ends the pattern: `'ab' LIKE 'ab\0c%'` holds. */
  lemma NulEndsPattern()
    ensures LikeOperator("ab", "ab\0c%")
  {
  }

  /** `%t` with a literal `t` matches exactly the strings that end with `t`
      up to ASCII case. */
  lemma LiteralSuffix(s: string, t: string)
    requires Literal(t)
    ensures Like(s, "%" + t) <==> EndsWith(Lower(s), Lower(t))
  {
    LeadingPercent(s, t);
    if k :| 0 <= k <= |s| && Like(s[k..], t) {
      LowerSlice(s, k, |s|);
      assert s[k..|s|] == s[k..];
    }
    if EndsWith(Lower(s), Lower(t)) {
      var k := |s| - |t|;
      LowerSlice(s, k, |s|);
      assert s[k..|s|] == s[k..];
      assert Like(s[k..], t);
    }
  }

  /** `s LIKE '%term%'` for a term without wildcards or U+0000, as SQLite
      evaluates it: a case-insensitive substring test on the text of `s`
      before its first U+0000. */
  lemma SubstringOperator(s: string, term: string)
    requires Literal(term) && NoNul(term)
    ensures LikeOperator(s, SubstringPattern(term)) <==> Contains(Lower(CutAtNul(s)), Lower(term))
  {
    CutAtNulConcat("%", term + "%");
    CutAtNulConcat(term, "%");
    assert NoNul("%");
    assert SubstringPattern(term) == "%" + (term + "%");
    assert CutAtNul(SubstringPattern(term)) == SubstringPattern(term);
    SubstringMatch(CutAtNul(s), term);
  }

  /** `s LIKE '%term%'` for a term without wildcards that holds U+0000, as
      SQLite evaluates it: the pattern is cut to `%` and the term's text
      before U+0000, so the test becomes a case-insensitive suffix test on
      the text of `s` before its first U+0000. */
  lemma SuffixOperator(s: string, term: string)
    requires Literal(term) && !NoNul(term)
    ensures LikeOperator(s, SubstringPattern(term)) <==> EndsWith(Lower(CutAtNul(s)), Lower(CutAtNul(term)))
  {
    var ct := CutAtNul(term);
    CutAtNulConcat("%", term + "%");
    CutAtNulConcat(term, "%");
    assert NoNul("%");
    assert SubstringPattern(term) == "%" + (term + "%");
    assert CutAtNul(SubstringPattern(term)) == "%" + ct;
    assert Literal(ct) by {
      assert forall i :: 0 <= i < |ct| ==> ct[i] == term[i];
    }
    LiteralSuffix(CutAtNul(s), ct);
  }

  /** The empty search term matches every value. */
  lemma EmptyTermMatchesAll(s: string)
    ensures LikeOperator(s, SubstringPattern(""))
  {
    assert Literal("") && NoNul("");
    SubstringOperator(s, "");
    ContainsEmpty(Lower(CutAtNul(s)));
  }
}

=== FILE: text.dfy ===
/** The handful of Python string operations the assistant relies on:
    `t in s`, `s.startswith(p)`, `s.lower()`, `sep.join(parts)` and
    `str(n)` for integers. */
module Text {

  /** `t` occurs in `s` at position `i`. */
  predicate OccursAt(s: string, t: string, i: int)
  {
    0 <= i && i + |t| <= |s| && s[i..i + |t|] == t
  }

  /** Python's `s.startswith(p)`: `p` agrees with `s` character by
      character over its whole length. */
  predicate StartsWith(s: string, p: string)
    ensures StartsWith(s, p) <==> |p| <= |s| && forall i :: 0 <= i < |p| ==> s[i] == p[i]
  {
    |p| <= |s| && s[..|p|] == p
  }

  /** A needle holding a character the haystack lacks never occurs in it. */
  lemma MissingCharNotContained(s: string, t: string, j: int)
    requires 0 <= j < |t|
    requires forall i :: 0 <= i < |s| ==> s[i] != t[j]
    ensures !Contains(s, t)
  {
    assert forall i :: OccursAt(s, t, i) ==> s[i..i + |t|][j] == s[i + j];
  }

  /** Python's `s.endswith(t)`. */
  predicate EndsWith(s: string, t: string)
  {
    |t| <= |s| && s[|s| - |t|..] == t
  }

  /** Python's `t in s` on strings: a scan over the start positions. */
  function Contains(s: string, t: string): (b: bool)
    ensures b <==> exists i :: OccursAt(s, t, i)
    decreases |s|
  {
    if |t| > |s| then false
    else if StartsWith(s, t) then (assert OccursAt(s, t, 0); true)
    else
      var b := Contains(s[1..], t);
      ShiftOccurrence(s, t);
      b
  }

  /** An occurrence in `s` past the first position is an occurrence in `s[1..]`. */
  lemma ShiftOccurrence(s: string, t: string)
    requires |s| > 0
    requires !OccursAt(s, t, 0)
    ensures (exists i :: OccursAt(s, t, i)) <==> (exists j :: OccursAt(s[1..], t, j))
  {
    if i :| OccursAt(s, t, i) {
      assert i > 0;
      assert s[1..][i - 1..i - 1 + |t|] == s[i..i + |t|];
      assert OccursAt(s[1..], t, i - 1);
    }
    if j :| OccursAt(s[1..], t, j) {
      assert s[1..][j..j + |t|] == s[j + 1..j + 1 + |t|];
      assert OccursAt(s, t, j + 1);
    }
  }

  /** The empty string occurs in every string. */
  lemma ContainsEmpty(s: string)
    ensures Contains(s, "")
  {
    assert OccursAt(s, "", 0);
  }

  /** When the first character of `t` never occurs in `p`, no occurrence of
      `t` in `p + e` can start inside `p`: `t` occurs in `p + e` exactly
      when it occurs in `e`. */
  lemma ContainsBehindPrefix(p: string, e: string, t: string)
    requires |t| > 0
    requires forall k :: 0 <= k < |p| ==> p[k] != t[0]
    ensures Contains(p + e, t) <==> Contains(e, t)
  {
    if i :| OccursAt(p + e, t, i) {
      OccurrenceBehindPrefix(p, e, t, i);
    }
    if j :| OccursAt(e, t, j) {
      assert (p + e)[j + |p|..j + |p| + |t|] == e[j..j + |t|];
      assert OccursAt(p + e, t, j + |p|);
    }
  }

  lemma OccurrenceBehindPrefix(p: string, e: string, t: string, i: int)
    requires |t| > 0
    requires forall k :: 0 <= k < |p| ==> p[k] != t[0]
    requires OccursAt(p + e, t, i)
    ensures i >= |p| && OccursAt(e, t, i - |p|)
  {
    var s := p + e;
    assert s[i..i + |t|][0] == s[i];
    assert s[i..i + |t|] == e[i - |p|..i - |p| + |t|];
  }

  /** SQLite's and Python's lower-casing of ASCII letters; every other
      character is left unchanged. */
  function LowerChar(c: char): (d: char)
    ensures 'A' <= c <= 'Z' ==> 'a' <= d <= 'z' && d as int - c as int == 32
    ensures !('A' <= c <= 'Z') ==> d == c
  {
    if 'A' <= c <= 'Z' then (c as int + 32) as char else c
  }

  /** `s.lower()` restricted to ASCII letters. */
  function Lower(s: string): (r: string)
    ensures |r| == |s|
    ensures forall i :: 0 <= i < |s| ==> r[i] == LowerChar(s[i])
  {
    seq(|s|, i requires 0 <= i < |s| => LowerChar(s[i]))
  }

  /** Lower-casing commutes with slicing. */
  lemma LowerSlice(s: string, a: int, b: int)
    requires 0 <= a <= b <= |s|
    ensures Lower(s[a..b]) == Lower(s)[a..b]
  {
  }

  /** Lower-casing distributes over concatenation. */
  lemma LowerConcat(a: string, b: string)
    ensures Lower(a + b) == Lower(a) + Lower(b)
  {
  }

  /** The blank line the assistant puts between the parts of a combined
      answer and between the sections of a lint report. */
  const Separator: string := "\n\n"

  /** Python's `sep.join(parts)`. */
  function Join(sep: string, parts: seq<string>): (r: string)
    ensures |parts| == 0 ==> r == ""
    ensures |parts| > 0 ==> StartsWith(r, parts[0])
    ensures |parts| > 0 && |parts[0]| > 0 ==> |r| > 0
    decreases |parts|
  {
    if |parts| == 0 then ""
    else if |parts| == 1 then parts[0]
    else parts[0] + sep + Join(sep, parts[1..])
  }

  lemma JoinTwo(sep: string, a: string, b: string)
    ensures Join(sep, [a, b]) == a + sep + b
  {
    assert [a, b][1..] == [b];
  }

  lemma JoinThree(sep: string, a: string, b: string, c: string)
    ensures Join(sep, [a, b, c]) == a + sep + b + sep + c
  {
    assert [a, b, c][1..] == [b, c];
    JoinTwo(sep, b, c);
  }

  /** The sum of the lengths of `parts`. */
  function TotalLength(parts: seq<string>): nat
  {
    if |parts| == 0 then 0 else |parts[0]| + TotalLength(parts[1..])
  }

  /** A join is exactly as long as its parts plus one separator between
      each adjacent pair. */
  lemma {:induction false} JoinLength(sep: string, parts: seq<string>)
    requires |parts| > 0
    ensures |Join(sep, parts)| == TotalLength(parts) + (|parts| - 1) * |sep|
    decreases |parts|
  {
    if |parts| > 1 {
      JoinLength(sep, parts[1..]);
    }
  }

  /** The decimal digit for `d`. */
  function DigitChar(d: int): (c: char)
    requires 0 <= d < 10
    ensures '0' <= c <= '9'
  {
    ('0' as int + d) as char
  }

  /** Python's `str(n)` for a non-negative integer. */
  function NatToString(n: nat): (s: string)
    ensures |s| > 0
    ensures forall i :: 0 <= i < |s| ==> '0' <= s[i] <= '9'
    ensures s[0] == '0' ==> n == 0 && s == "0"
  {
    if n < 10 then [DigitChar(n)] else NatToString(n / 10) + [DigitChar(n % 10)]
  }

  /** Python's `str(n)` for any integer. */
  function IntToString(n: int): (s: string)
    ensures |s| > 0
    ensures n >= 0 ==> '0' <= s[0] <= '9'
    ensures n < 0 ==> s[0] == '-'
    ensures forall i :: 0 <= i < |s| ==> s[i] == '-' || '0' <= s[i] <= '9'
  {
    if n < 0 then "-" + NatToString(-n) else NatToString(n)
  }

  /** The value of a string of decimal digits: the inverse of `NatToString`. */
  function DecimalValue(s: string): nat
    requires forall i :: 0 <= i < |s| ==> '0' <= s[i] <= '9'
  {
    if |s| == 0 then 0
    else DecimalValue(s[..|s| - 1]) * 10 + (s[|s| - 1] as int - '0' as int)
  }

  /** Reading back the digits `str(n)` prints gives `n`. */
  lemma {:induction false} DecimalRoundTrip(n: nat)
    ensures DecimalValue(NatToString(n)) == n
  {
    var s := NatToString(n);
    if n >= 10 {
      DecimalRoundTrip(n / 10);
      assert s[..|s| - 1] == NatToString(n / 10);
    }
  }

  /** `str` is injective on integers, so printed ids identify records. */
  lemma IntToStringInjective(a: int, b: int)
    requires IntToString(a) == IntToString(b)
    ensures a == b
  {
    if a >= 0 && b >= 0 {
      DecimalRoundTrip(a);
      DecimalRoundTrip(b);
    } else if a < 0 && b < 0 {
      assert NatToString(-a) == IntToString(a)[1..];
      assert NatToString(-b) == IntToString(b)[1..];
      DecimalRoundTrip(-a);
      DecimalRoundTrip(-b);
    }
  }

  /** When `t` begins with `a` + " " and also with `b` + " ", and neither
      `a` nor `b` holds a space, then `a` and `b` are the same: text up to
      the first space reads back one way only. */
  lemma SpaceDelimited(t: string, a: string, b: string)
    requires forall i :: 0 <= i < |a| ==> a[i] != ' '
    requires forall i :: 0 <= i < |b| ==> b[i] != ' '
    requires StartsWith(t, a + " ") && StartsWith(t, b + " ")
    ensures a == b
  {
    var k := if |a| <= |b| then |a| else |b|;
    assert t[k] == (a + " ")[k] && t[k] == (b + " ")[k];
    assert |a| == |b|;
    assert a == (a + " ")[..|a|] == t[..|a|];
    assert b == (b + " ")[..|b|] == t[..|b|];
  }

  /** How many bytes UTF-8 spends on one character. */
  function Utf8Width(c: char): (n: nat)
    ensures 1 <= n <= 4
    ensures n == 1 <==> c as int < 0x80
  {
    if c as int < 0x80 then 1
    else if c as int < 0x800 then 2
    else if c as int < 0x1_0000 then 3
    else 4
  }

  /** The length in bytes of the UTF-8 encoding of `s`: what SQLite counts
      when it measures a text value Python binds. Every character takes one
      to four bytes, and ASCII text takes one byte per character. */
  function Utf8Length(s: string): (n: nat)
    ensures |s| <= n <= 4 * |s|
    ensures (forall i :: 0 <= i < |s| ==> s[i] as int < 0x80) ==> n == |s|
  {
    if |s| == 0 then 0 else Utf8Width(s[0]) + Utf8Length(s[1..])
  }

  /** Encoded lengths add up over concatenation. */
  lemma {:induction false} Utf8LengthConcat(a: string, b: string)
    ensures Utf8Length(a + b) == Utf8Length(a) + Utf8Length(b)
    decreases |a|
  {
    if |a| == 0 {
      assert a + b == b;
    } else {
      assert (a + b)[0] == a[0];
      assert (a + b)[1..] == a[1..] + b;
      Utf8LengthConcat(a[1..], b);
    }
  }
}
